=== FILE: README.md ===
# OpenClaw model routing, Discord runtime and preflight — a Dafny model

This project models the decision logic of the OpenClaw single-machine deployment:

- **Model router** (`src/model_router.py`). It loads the provider catalog (`config/providers.json`).
  - It builds a role's plan: a primary `(provider, model)` and its complete fallbacks, in declared order.
  - It turns an optional explicit `(provider, model)` request into a candidate chain.
  - It resolves the chain to the first statically available model. The result is flagged as a fallback when it is not the head.
  - It lists the preflight issues: providers that lack an environment variable, and roles whose resolution raises.
- **Discord runtime** (`src/discord_bot_runtime.py`).
  - It parses the allowed-channel list.
  - It builds a role's candidate list.
  - It dispatches a call to the Anthropic or Ollama adapter.
  - The live-call fallback tries candidates in order and sends one alert when all of them fail.
  - It decides whether to answer a message, cleans the prompt of bot mentions, and chunks a long reply.
- **Ollama manager** (`src/ollama_manager.py`). `ensure_models` reports which required models are missing, given a health-check result.
- **Preflight script** (`scripts/preflight.py`).
  - It loads a `.env` file into the process environment without overwriting.
  - It runs four service checks: Anthropic, Google Gemini, Ollama and the Discord bot.
  - It prints the report and returns an exit code.

Python built-ins the code relies on are modelled in `text.dfy`, with their edge cases written out:

- `strip`, `rstrip(c)` and `split(sep)` (never empty);
- `sep.join`;
- `splitlines` (the full set of line boundaries, with `\r\n` as one boundary);
- `replace(pat, "")` (a left-to-right scan without overlaps);
- `int()` (an optional sign, ASCII digits and single `_` separators);
- `str(int)`.

`seqs.dfy` holds two generic helpers: a first-index search and the set of values a partial map yields over a sequence.

## How it is modelled

**Entities as data.**
- The catalog is typed. Every key the code reads is an `Option` field, `None` when the key is absent. A flag records whether an object has other keys, which is what Python's truthiness of a non-empty `dict` depends on.
- JSON objects keep their keys in document order, because `validate_environment` reports issues in dict iteration order.

**Loops as methods.**
- Each `for`/`while` loop of the source is a `method` with a loop and invariants. These are the loops of `_role_plan`, `role_candidates`, `resolve_runtime_model`, `validate_environment`, `_parse_allowed_channels`, `_extract_anthropic_text`, `complete_with_fallback`, `_chunk_message`, `_load_env` and the report loop of `main`.
- The list comprehension of `ensure_models` is an expression, so it is the recursive function `OllamaManager.Missing`.
- Each such method is proved equal to a reference function. The lemmas about that function state what the source promises.
- A loop body that calls other functions is a small method of its own. These are `EntryIssues`, `RoleIssueOf`, `ParseChannelItem` and `ApplyLine`.
- Some whole loops are methods of their own, called by the operation they belong to. `AppendComplete` is the fallback loop of `_role_plan` and `role_candidates`. `WalkChain` is the search of `resolve_runtime_model`, and `TryInOrder` the candidate loop of `complete_with_fallback`.
- `ListCandidates` is `role_candidates` once the catalog is loaded.

**The process environment.** `os.environ` is the class `Preflight.Environment`. Its variable map is updated in place by `SetDefault` and `LoadEnv`.

**Outside effects.**
- Calls to the outside world are parameters:
  - the provider APIs are oracles from `(model, prompt)` to reply text or an exception message;
  - `_get` is an oracle from request to outcome;
  - the configuration file is a value saying whether it is missing, not UTF-8, invalid JSON, or a catalog, and `.env` one saying whether it is missing, not UTF-8, or a text;
  - the environment is a map.
- What the code sends out is returned as a log, so that "no request is made" and "exactly one alert" can be stated. This covers the candidates invoked, the alerts sent, the HTTP requests issued and the lines printed.

## Model

| member | source | states |
|---|---|---|
| ModelRouter.LoadConfig | src/model_router.py:27-34 | A missing file raises `ConfigNotFound` and unparsable text raises `InvalidJson`, both as `ModelResolutionError`. A file that is not UTF-8 raises the decoding error instead, which the `JSONDecodeError` handler does not catch. Loading succeeds exactly when the file exists, decodes and parses, and yields that document. |
| ModelRouter.ModelAvailable | src/model_router.py:37-47 | A candidate is available exactly when its provider entry exists, `enabled` is true (an absent `enabled` counts as false) and the model is in the entry's `models`. The entry is looked up with `_provider_cfg` (`ModelRouter.ProviderCfgOf`), whose contract says it is the entry `providers` holds for that name, if any. |
| ModelRouter.RolePlan | src/model_router.py:50-68 | The loop computes the reference plan. The only errors are an unknown or empty role and a primary lacking a provider or model. A plan exists only for a declared role. |
| ModelRouter.AppendComplete | src/model_router.py:61-66 | The fallback loop appends exactly the entries with a truthy provider and model, in declared order. |
| ModelRouter.CompleteRefsAppend | src/model_router.py:62-66 | Filtering keeps order: the filter of a concatenation is the concatenation of the filters. |
| ModelRouter.CompleteRefsMembers | src/model_router.py:62-66 | A candidate is kept exactly when some complete entry names it. |
| ModelRouter.IterCandidates | src/model_router.py:71-86 | An explicit pair heads the fallbacks of `role or defaults.role or "ace"`. It succeeds exactly when that role has a plan, and otherwise raises that plan's error. Otherwise the plan of `role or defaults.role` is used. No role at all raises `NoRoleSelected`. |
| ModelRouter.ResolveRuntimeModel | src/model_router.py:89-116 | The method returns exactly the reference resolution of the request. |
| ModelRouter.WalkChain | src/model_router.py:102-116 | The search loop returns the first available model of the chain, or `Unavailable` naming the head. |
| ModelRouter.ChainSearch | src/model_router.py:102-112 | The first available index is 0 when the head is available. Otherwise it is k+1 for the first available fallback k. There is none exactly when nothing is available. |
| ModelRouter.ResolveWalksChain | src/model_router.py:102-116 | An available head wins, unflagged. Otherwise the first available fallback wins, flagged. Resolution fails, naming the head, exactly when no candidate is available. |
| ModelRouter.ExplicitRequest | src/model_router.py:77-80 | A usable explicit pair wins unflagged. The request raises when its fallback role has no valid plan. Any fallback answer is one of that role's declared fallbacks. |
| ModelRouter.RoleRequest | src/model_router.py:82-86 | With neither a role nor `defaults.role`, resolution raises `NoRoleSelected`. A role plan error propagates. An available primary wins. |
| ModelRouter.ValidateEnvironment | src/model_router.py:119-147 | Returns exactly the reference issue list: provider issues first, then role issues, each part in document order. |
| ModelRouter.CollectProviderIssues | src/model_router.py:124-139 | The provider loop collects each entry's issues in document order. |
| ModelRouter.EntryIssues | src/model_router.py:126-139 | One provider entry yields no issue when disabled. Otherwise it yields one issue per named variable that is unset or empty, key variable first. |
| ModelRouter.CollectRoleIssues | src/model_router.py:141-145 | The role loop collects one issue per declared role whose resolution raises, in document order. |
| ModelRouter.RoleIssueOf | src/model_router.py:142-145 | One role yields its resolution error, caught, or nothing. |
| ModelRouter.ProviderIssuesMembers | src/model_router.py:126-139 | A missing-variable issue is reported for an entry exactly when it is enabled, names that variable, and the environment lacks it. |
| ModelRouter.ProvidersIssuesMembers | src/model_router.py:124-139 | Over all entries: an issue `(p, v)` is reported exactly when `p` is listed and misses `v`. |
| ModelRouter.IssueKinds | src/model_router.py:124-145 | The provider part holds only missing-variable issues, and the role part only role failures. |
| ModelRouter.RolesIssuesMembers | src/model_router.py:141-145 | A role failure `(r, e)` is reported exactly when `r` is declared and resolving it raises `e`. |
| ModelRouter.IssuesExact | src/model_router.py:119-147 | Every reported issue is genuine, and every genuine issue is reported, for both kinds. |
| ModelRouter.ProvidersIssuesEmpty | src/model_router.py:124-139 | There is no provider issue exactly when no listed entry misses a variable. |
| ModelRouter.RolesIssuesEmpty | src/model_router.py:141-145 | There is no role issue exactly when every listed role resolves. |
| ModelRouter.IssuesEmptyIff | src/model_router.py:119-147 | An empty list (healthy enough to boot) exactly when every enabled provider has its variables and every declared role resolves. |
| DiscordBotRuntime.ParseChannelItem | src/discord_bot_runtime.py:47-53 | One item is stripped; an empty item is skipped; otherwise its `int()` value, or nothing when that raises. |
| DiscordBotRuntime.ParseAllowedChannels | src/discord_bot_runtime.py:44-54 | The set is the image of the comma-split items under strip-then-`int()`. |
| DiscordBotRuntime.CollectChannels | src/discord_bot_runtime.py:46-53 | The loop collects exactly the ids of the items that parse. |
| DiscordBotRuntime.ChannelMembers | src/discord_bot_runtime.py:44-54 | An id is allowed exactly when some item, once stripped, is non-empty and parses as that id. |
| DiscordBotRuntime.ChannelsRoundTrip | src/discord_bot_runtime.py:44-54 | Ids written in decimal and joined with commas parse back to exactly those ids. An empty setting allows no channel. |
| DiscordBotRuntime.ChannelOfIntToString | src/discord_bot_runtime.py:47-51 | The decimal text of an id holds no comma and parses back to that id. |
| DiscordBotRuntime.RoleCandidates | src/discord_bot_runtime.py:78-95 | A configuration load error propagates. Otherwise the result is the reference candidate list or its error. A returned list is never empty. |
| DiscordBotRuntime.ListCandidates | src/discord_bot_runtime.py:80-95 | With the catalog loaded, the result is the complete primary, then the complete fallbacks in order. An unknown or empty role and an empty list raise. |
| DiscordBotRuntime.CandidatesMatchPlan | src/discord_bot_runtime.py:78-95 | A role with a valid plan lists exactly that chain. An unknown role is unknown to both. With an incomplete primary, the runtime still lists the complete fallbacks, where the resolver raises. |
| DiscordBotRuntime.InvokeCandidate | src/discord_bot_runtime.py:139-144 | "anthropic" and "ollama" go to their adapters. Any other provider fails with the unsupported-provider message, and only those two can answer. |
| DiscordBotRuntime.BlockTexts | src/discord_bot_runtime.py:99-103 | Every kept text is non-empty and is the text of some block. There are no more texts than blocks. |
| DiscordBotRuntime.BlockTextsAppend | src/discord_bot_runtime.py:100-103 | Texts are kept in block order: the texts of a concatenation are the concatenated texts. |
| DiscordBotRuntime.BlockTextsOne | src/discord_bot_runtime.py:101-103 | A single block contributes its text exactly when that text is present and non-empty. |
| DiscordBotRuntime.BlockTextsOfTexts | src/discord_bot_runtime.py:100-103 | Blocks that all carry non-empty texts contribute exactly those texts, in order. |
| DiscordBotRuntime.AnthropicText | src/discord_bot_runtime.py:98-105 | The result is never empty. It is the placeholder or a text that neither begins nor ends with white space. |
| DiscordBotRuntime.ExtractAnthropicText | src/discord_bot_runtime.py:98-105 | The loop collects the non-empty block texts in order, and the result is `AnthropicText` of the blocks. |
| DiscordBotRuntime.ExtractAnthropicTextPlaceholder | src/discord_bot_runtime.py:104-105 | The joined text strips to nothing exactly when every block text is white space or absent. Then the placeholder is returned; otherwise the stripped, newline-joined texts are. |
| DiscordBotRuntime.ExtractAnthropicTextJoins | src/discord_bot_runtime.py:98-105 | Non-empty texts whose newline-joined whole has no white space at either end come back exactly as that join. |
| DiscordBotRuntime.BlockTextsBlank | src/discord_bot_runtime.py:100-103 | The kept texts are all white space exactly when every block text is. |
| DiscordBotRuntime.ExtractAnthropicTextCases | src/discord_bot_runtime.py:98-105 | A response with no non-empty text gives the placeholder. A single trimmed text block gives exactly that text. |
| DiscordBotRuntime.NoTexts | src/discord_bot_runtime.py:99-103 | Blocks without non-empty text contribute nothing. |
| DiscordBotRuntime.ErrorLinesOnePerCandidate | src/discord_bot_runtime.py:154-157 | Exactly one `provider/model: message` line per failed candidate, in order. |
| DiscordBotRuntime.TryInOrder | src/discord_bot_runtime.py:148-157 | The answer is from the first candidate, in list order, that succeeds, and no later one is invoked. When none succeeds, every candidate is invoked once and one error line is kept per candidate, in order. |
| DiscordBotRuntime.CompleteWithFallback | src/discord_bot_runtime.py:147-165 | A configuration or candidate-list error raises at once, with nothing invoked and no alert. Otherwise the answer comes from the first candidate that succeeds, and nothing after it is invoked. When every candidate fails, each was invoked once and exactly one alert is sent, carrying one error line per candidate in order and the role; then the call raises. |
| DiscordBotRuntime.ShouldRespond | src/discord_bot_runtime.py:168-173 | Answer exactly when answering in all channels, or the channel is allowed, or the message starts with `<@id>` or `<@!id>`. |
| DiscordBotRuntime.CleanPrompt | src/discord_bot_runtime.py:176-178 | The prompt is never empty. It is the default greeting or a text that neither begins nor ends with white space. |
| DiscordBotRuntime.NoMentionIn | src/discord_bot_runtime.py:177 | Text without `<` is left unchanged by removing either mention form. |
| DiscordBotRuntime.CleanPromptPlain | src/discord_bot_runtime.py:176-178 | A message without `<` holds no mention, so it cleans to its stripped text, or to the greeting when that is empty. |
| DiscordBotRuntime.CleanPromptJoin | src/discord_bot_runtime.py:176-178 | Text without `<` interleaved with `<@id>` mentions, or with `<@!id>` mentions, cleans to the text alone, stripped, or to the greeting when nothing else remains. |
| DiscordBotRuntime.MentionJoinRemoved | src/discord_bot_runtime.py:177 | The two `replace` calls take text joined by `<@id>` back to the text alone. |
| DiscordBotRuntime.NickJoinRemoved | src/discord_bot_runtime.py:177 | The two `replace` calls take text joined by `<@!id>` back to the text alone. |
| DiscordBotRuntime.NickJoinSurvives | src/discord_bot_runtime.py:177 | The first `replace` leaves text joined by `<@!id>` unchanged. |
| DiscordBotRuntime.CleanPromptNested | src/discord_bot_runtime.py:177-178 | Each `replace` is a single pass: `<@<@1>1>` for bot 1 cleans to `<@1>`, a mention that the removal brought together. |
| DiscordBotRuntime.CleanPromptAfterMention | src/discord_bot_runtime.py:176-178 | `<@id> question` cleans to the stripped question. |
| DiscordBotRuntime.CleanPromptMentionOnly | src/discord_bot_runtime.py:176-178 | A message that is only `<@id>` cleans to the default greeting. |
| DiscordBotRuntime.CleanPromptNickMentionOnly | src/discord_bot_runtime.py:176-178 | A message that is only `<@!id>` cleans to the default greeting. |
| DiscordBotRuntime.NickMentionSurvives | src/discord_bot_runtime.py:177 | Removing `<@id>` leaves `<@!id>` whole, so the second `replace` sees it. |
| DiscordBotRuntime.MentionNotInNick | src/discord_bot_runtime.py:177 | `<@!id>` does not start with `<@id>` and holds no other `<`. |
| DiscordBotRuntime.ChunkMessage | src/discord_bot_runtime.py:181-183 | A positive size gives pieces that concatenate back to the text, each 1 to size characters long, all but the last exactly size. Size 0 raises. A negative size yields nothing. |
| OllamaManager.Missing | src/ollama_manager.py:30-31 | A model is listed exactly when it is required and not available. There are no more entries than required models. |
| OllamaManager.MissingCounts | src/ollama_manager.py:31 | Duplicates are kept: an absent model appears as often as it is required. |
| OllamaManager.MissingAppend | src/ollama_manager.py:31 | Required order is kept across concatenation. |
| OllamaManager.EnsureModels | src/ollama_manager.py:25-38 | An unreachable server reports every required model as missing, with the health-check message. Otherwise the result is ok exactly when every required model is installed, and a failure lists the missing models in required order with the fixed message. |
| Preflight.ParseEnvLine | scripts/preflight.py:20-23 | A line is skipped exactly when, stripped, it is blank, starts with `#`, or holds no `=`. |
| Preflight.ParseEnvLineCutsAtFirst | scripts/preflight.py:21-24 | A kept line is cut at its first `=`. The key is the stripped text before it and the value the stripped rest. |
| Preflight.ParseEnvLineFormatted | scripts/preflight.py:20-24 | `KEY=VALUE`, with a trimmed key free of `=` and a trimmed value, parses back to that key and value. The value may itself hold `=`. |
| Preflight.ApplyEntriesKeeps | scripts/preflight.py:19-24 | Loading never overwrites a variable already set. The variables added are exactly the keys of the kept lines. |
| Preflight.FirstEntryWins | scripts/preflight.py:19-24 | For a variable not already set, the first line that sets it decides its value. |
| Preflight.Environment.SetDefault | scripts/preflight.py:24 | An absent variable is set and a present one left alone. |
| Preflight.Environment.ApplyLine | scripts/preflight.py:20-24 | One line is parsed and its entry, if any, is applied with `setdefault`. |
| Preflight.Environment.LoadEnv | scripts/preflight.py:15-24 | No file leaves the environment unchanged. A file that is not UTF-8 raises before any line is applied. Otherwise every line of `splitlines()` is parsed and applied with `setdefault`, in order. |
| Preflight.CheckAnthropic | scripts/preflight.py:39-53 | A blank key fails with "Missing ANTHROPIC_API_KEY" and sends no request. Otherwise exactly one models request carries the stripped key; its outcome decides the check. Success says "Anthropic API key accepted by /v1/models", and the failure message includes the HTTP message. |
| Preflight.CheckGoogle | scripts/preflight.py:56-66 | A blank key fails with "Missing GOOGLE_API_KEY" and sends nothing. Otherwise one request with the key decides the check, and the message says which way. |
| Preflight.CheckOllama | scripts/preflight.py:69-77 | The check raises, sending nothing, exactly when `<base>/api/tags` has no URL scheme. Otherwise exactly one request goes to that URL. The check passes exactly when the server answers and lists at least one model, and the message gives the count. |
| Preflight.HasSchemeIff | scripts/preflight.py:28 | A URL has a scheme exactly when a non-empty prefix free of `/` and `:` is followed by `:`, the test `urllib` applies when it builds a request. |
| Preflight.SchemeUrlAccepted | scripts/preflight.py:28 | A URL that `unwrap` leaves alone and that starts with a scheme and `:` can be requested, whatever fragment follows. |
| Preflight.SchemelessUrlRefused | scripts/preflight.py:28 | A URL that `unwrap` leaves alone and that has no scheme makes building the request raise. |
| Preflight.ColonlessBaseRaises | scripts/preflight.py:28-70 | An `OLLAMA_BASE_URL` without any `:`, such as an empty one or `localhost`, makes the Ollama check raise `ValueError`. |
| Preflight.SchemeBaseAccepted | scripts/preflight.py:28-70 | A base URL that starts with a lower-case scheme and `:` lets the Ollama check send its request. |
| Preflight.DefaultOllamaBaseAccepted | scripts/preflight.py:70 | With `OLLAMA_BASE_URL` unset, the default `http://127.0.0.1:11434` lets the Ollama check send its request. |
| Preflight.CheckDiscordBot | scripts/preflight.py:80-92 | A blank token fails and sends nothing. Otherwise one `/users/@me` request decides the check, and the message names the user (or "unknown"). |
| Preflight.StatusLines | scripts/preflight.py:107-109 | One `[OK]` or `[FAIL]` line per check, in order. |
| Preflight.Report | scripts/preflight.py:104-118 | The header, one line per check and the footer are printed. The code is 1 exactly when some check failed, else 0. |
| Preflight.RunPreflight | scripts/preflight.py:95-118 | The `.env` file is loaded first. A `.env` that is not UTF-8 ends `main` with the decoding error, with no check, no request and nothing printed. An Ollama URL without a scheme ends `main` with `ValueError` while the list of checks is built: only the Anthropic and Google requests have gone out, and nothing is printed. Otherwise the four checks run against the loaded environment, their requests go out in order, and the code is 1 exactly when some check failed. |
| Preflight.VerdictFails | scripts/preflight.py:104-115 | The preflight fails exactly when one of the four checks fails. |
| Preflight.MissingAnthropicKeyFails | scripts/preflight.py:39-42 | A blank Anthropic key fails the preflight whatever the other checks say, and sends no Anthropic request. |
| Preflight.OllamaWithoutModelsFails | scripts/preflight.py:69-77 | An Ollama server that lists no model fails the preflight whatever the other checks say, whenever the Ollama request can be built. |
| Text.StripRemovesOnlySpace | src/discord_bot_runtime.py:47 | `strip()` removes only leading and trailing white space. |
| Text.StripKeepsTrimmed | src/discord_bot_runtime.py:47 | Text without white space at either end is left alone. |
| Text.JoinSplit | src/discord_bot_runtime.py:46 | Joining the pieces of a split with the separator gives back the text. |
| Text.SplitPiecesFree | src/discord_bot_runtime.py:46 | No piece of a split holds the separator. |
| Text.SplitJoin | src/discord_bot_runtime.py:46 | Pieces free of the separator, joined with it, split back into the same pieces. |
| Text.SplitLinesJoin | scripts/preflight.py:19 | Lines without boundaries, joined with `\n`, split back into the same lines (last line non-empty). |
| Text.RemoveAllPrefix | src/discord_bot_runtime.py:177 | An occurrence at the start is removed. |
| Text.RemoveAllAbsent | src/discord_bot_runtime.py:177 | Text in which the pattern never occurs is unchanged. |
| Text.RemoveAllSkip | src/discord_bot_runtime.py:177 | Text holding no first character of the pattern passes through the removal unchanged. |
| Text.RemoveAllJoin | src/discord_bot_runtime.py:177 | Pieces without the pattern's first character, joined by the pattern, come back concatenated. |
| Text.StripEmptyIff | src/discord_bot_runtime.py:104 | `strip()` leaves nothing exactly when the text is all white space. |
| Text.JoinAllSpace | src/discord_bot_runtime.py:104 | A join with a white-space separator is all white space exactly when every piece is. |
| Text.JoinEnds | src/discord_bot_runtime.py:104 | A join begins with its first piece and ends with its last one. |
| Text.ParseIntToString | src/discord_bot_runtime.py:51 | `int(str(n)) == n` for every integer, without Python's limit on the number of digits. |
| Text.RStripChar | scripts/preflight.py:70 | `rstrip('/')` drops exactly the trailing slashes and keeps the rest as a prefix. |

## Left out

**Network, processes and configuration input**
- A `.env` or `config/providers.json` that exists but cannot be read at all (a directory, a file without read permission) makes `read_text` raise `IsADirectoryError` or `PermissionError`. This is not modelled: `Preflight.EnvFile` and `ModelRouter.ConfigFile` have no such case.
- DiscordBotRuntime.ProviderApi: the provider oracle is a pure function of `(model, prompt)`. A candidate listed twice (a fallback equal to the primary) therefore fails again when retried, where a live API might answer the second time.
- DiscordBotRuntime.CompleteWithFallback: `send_discord_alert` builds its request outside its own `try` (src/discord_interface.py:20-25). A malformed non-empty webhook URL then raises `ValueError` out of `complete_with_fallback` in place of `ModelCallError`. The model always records the alert and ends with `AllCandidatesFailed`.
- Network I/O is modelled as oracles. The oracles are `ProviderApi` for `call_anthropic`/`call_ollama` and `Fetch` for `_get`. Their bodies (HTTP, JSON decoding, the Anthropic SDK) and their timeouts are not modelled; what the code does with their results is.
- `health_check` and `pull_model` in `src/ollama_manager.py` are network calls. `ensure_models` takes the health-check result as a parameter.
- `run_discord_bot` is not modelled. It is the Discord event loop, typing indicator and `asyncio.to_thread`.
- `load_runtime_config` and `load_dotenv` are not modelled. They read process environment variables into `BotRuntimeConfig`, which is a parameter here.
- `config or load_config()` in `resolve_runtime_model` and `validate_environment` is not modelled. The catalog is passed in, so an empty `{}` configuration that would make them reload from disk is not modelled.
- The JSON shape is assumed as documented. A `null` or wrongly typed value that would make the source raise `AttributeError`/`TypeError` is not modelled.
- The text of exception messages is replaced by the error datatypes. These are `ResolutionError`, `RuntimeError` and the missing-variable and role-failure issues.

**Logging, printing and payloads**
- Logging is not modelled (`LOGGER.info`/`warning`).
- `print` becomes a returned sequence of lines.
- `send_discord_alert` becomes an `Alert` record in a returned log. What the webhook does with it is not part of this model.
- `Preflight.Payload` keeps only what the checks read: the length of `models` and `username`.

**Python details**
- `_chunk_message` is a generator. The `ValueError` that `range` raises for size 0 is `None` here, and the pieces are returned as one sequence.
- `os.environ` raises `ValueError` for an empty variable name (a `.env` line such as `=x`). This is not modelled; the entry is applied like any other.
- `Text.ParseInt` accepts ASCII digits only. Python's `int()` also accepts other Unicode decimal digits.
- Text.ParseIntToString: CPython limits `int(s)` and `str(n)` to 4300 decimal digits and raises `ValueError` beyond. `Text.ParseInt` and `Text.IntToString` have no such limit. A channel id of more than 4300 digits is therefore added by the model, where `_parse_allowed_channels` skips it with a warning. `DiscordBotRuntime.ChannelsRoundTrip` and `DiscordBotRuntime.ChannelOfIntToString` hold only below that limit in Python.
- Preflight.RequestAccepts: of what `urllib.request.Request` checks as it is built, only the URL scheme is modelled. The fixed `https:` URLs of the Anthropic, Google and Discord checks always pass it, so those checks do not test it.

**Parts of the repository not modelled**
- The `.env` parsers duplicated in `scripts/resolve_model.py` and `scripts/health_check.py` are not part of this model; the preflight parser stands for them.
- The command-line scripts (`resolve_model.py`, `bootstrap_mac_mini.py`, `healthcheck.py`, `run_discord_bot.py`) are not part of this model.
- Model aliases, retrying failed models and live probing are not implemented in the source, so they are absent here too.

**Weaker contracts**
- Text.Strip: its own contract states only the trimmed ends and the length bound. That only white space is removed is the separate lemma `Text.StripRemovesOnlySpace`.

=== FILE: discord_bot_runtime.dfy ===
/**
 * The Discord runtime's decision logic (src/discord_bot_runtime.py): which channels and
 * messages it answers, how it cleans a prompt and chunks a reply, and the live-call fallback
 * that tries a role's candidates in order and alerts operators once when all of them fail.
 * The provider APIs are oracles: a call yields the reply text or the message of the exception.
 */
module DiscordBotRuntime {
  import opened Wrappers
  import opened Text
  import opened Seqs
  import opened ModelRouter

  /** The runtime settings read from the environment at start-up. */
  datatype BotRuntimeConfig = BotRuntimeConfig(
    token: string,
    anthropicKey: string,
    localOpenaiBaseUrl: string,
    alertWebhook: string,
    role: string,
    timeout: int,
    respondInAllChannels: bool,
    allowedChannels: set<int>)

  /** The exceptions that escape `complete_with_fallback`. */
  datatype RuntimeError =
    | ConfigLoadFailed(cause: LoadError)
    | RoleNotConfigured(role: string)
    | NoCandidates(role: string)
    | AllCandidatesFailed

  /** One call of `send_discord_alert`. */
  datatype Alert = Alert(webhook: string, title: string, description: string, errors: seq<string>, role: string)

  /** A provider API as the runtime sees it: (model, prompt) to reply text, or to an exception message. */
  type ProviderApi = (string, string) -> Result<string, string>

  /** One response block; `text` is `None` for a block without text. */
  datatype Block = Block(text: Option<string>)

  /** The channel id one comma-separated item contributes: its stripped text, if that parses as an integer. */
  function ChannelOf(item: string): Option<int> {
    var t := Strip(item);
    if t == [] then None else ParseInt(t)
  }

  /** The body of the loop in `_parse_allowed_channels`: strip, skip an empty item, and try `int()`. */
  method ParseChannelItem(item: string) returns (channel: Option<int>)
    ensures channel == ChannelOf(item)
    ensures channel.Some? ==> Strip(item) != [] && ParseInt(Strip(item)) == channel
  {
    var text := Strip(item);
    if text == [] {
      return None;
    }
    channel := ParseInt(text);
  }

  /**
   * `_parse_allowed_channels`: the set of comma-separated items that, once stripped, are
   * non-empty and parse as integers; every other item is skipped without raising.
   */
  method ParseAllowedChannels(value: string) returns (out: set<int>)
    ensures out == Image(Split(value, ','), ChannelOf)
  {
    var items := Split(value, ',');
    out := CollectChannels(items);
  }

  /** The loop of `_parse_allowed_channels` over the comma-separated items. */
  method CollectChannels(items: seq<string>) returns (out: set<int>)
    ensures out == Image(items, ChannelOf)
  {
    out := {};
    for i := 0 to |items|
      invariant out == Image(items[..i], ChannelOf)
    {
      ImageStep(items, i, ChannelOf);
      var channel := ParseChannelItem(items[i]);
      if channel.Some? {
        out := out + {channel.value};
      }
    }
    assert items[..|items|] == items;
  }

  /** An id is collected exactly when some item, stripped, is non-empty and parses as that id. */
  lemma ChannelMembers(items: seq<string>, id: int)
    ensures id in Image(items, ChannelOf) <==>
      exists item :: item in items && Strip(item) != [] && ParseInt(Strip(item)) == Some(id)
  {
    ImageMembers(items, ChannelOf, id);
    if exists item :: item in items && Strip(item) != [] && ParseInt(Strip(item)) == Some(id) {
      var item :| item in items && Strip(item) != [] && ParseInt(Strip(item)) == Some(id);
      var i :| 0 <= i < |items| && items[i] == item;
      assert ChannelOf(items[i]) == Some(id);
    }
  }

  /** Decimal ids written out and joined with commas parse back to exactly those ids. */
  lemma ChannelsRoundTrip(ids: seq<int>, pieces: seq<string>)
    requires |pieces| == |ids|
    requires forall i :: 0 <= i < |ids| ==> pieces[i] == IntToString(ids[i])
    ensures forall id :: id in Image(Split(Join(pieces, ","), ','), ChannelOf) <==> id in ids
  {
    if ids == [] {
      NoChannels();
    } else {
      SomeChannelsRoundTrip(ids, pieces);
    }
  }

  /** An empty setting allows no channel. */
  lemma NoChannels()
    ensures Image(Split(Join([], ","), ','), ChannelOf) == {}
  {
    assert Image([""], ChannelOf) == {};
  }

  lemma SomeChannelsRoundTrip(ids: seq<int>, pieces: seq<string>)
    requires ids != [] && |pieces| == |ids|
    requires forall i :: 0 <= i < |ids| ==> pieces[i] == IntToString(ids[i])
    ensures forall id :: id in Image(Split(Join(pieces, ","), ','), ChannelOf) <==> id in ids
  {
    forall i | 0 <= i < |ids| ensures ',' !in pieces[i] && ChannelOf(pieces[i]) == Some(ids[i]) {
      ChannelOfIntToString(ids[i]);
    }
    SplitJoin(pieces, ',');
    ImageOfDecoded(pieces, ids, ChannelOf);
  }

  /** The decimal text of one id is an item that parses back to that id. */
  lemma ChannelOfIntToString(n: int)
    ensures ',' !in IntToString(n)
    ensures ChannelOf(IntToString(n)) == Some(n)
  {
    IntToStringShape(n);
    StripKeepsTrimmed(IntToString(n));
    ParseIntToString(n);
  }

  /** The decimal text of an integer: a minus sign and digits, no comma and no white space. */
  lemma IntToStringShape(n: int)
    ensures IntToString(n) != []
    ensures forall k :: 0 <= k < |IntToString(n)| ==> IntToString(n)[k] == '-' || IsDigit(IntToString(n)[k])
    ensures !IsSpace(IntToString(n)[0]) && !IsSpace(IntToString(n)[|IntToString(n)| - 1])
    ensures ',' !in IntToString(n)
  {
  }

  /** The candidates `role_candidates` lists for a loaded catalog, or the error it raises. */
  function CandidatesOf(cfg: Catalog, role: string): Result<seq<Candidate>, RuntimeError> {
    match cfg.roles.Get(role)
    case None => Failure(RoleNotConfigured(role))
    case Some(entry) =>
      if !entry.NonEmpty() then Failure(RoleNotConfigured(role))
      else
        var list := Kept(entry.primary.GetOr(RefCfg(None, None))) + CompleteRefs(entry.fallbacks.GetOr([]));
        if list == [] then Failure(NoCandidates(role)) else Success(list)
  }

  /**
   * `role_candidates`, with the configuration file it loads as `file`: a load error or an
   * unknown role raises; otherwise the complete primary and the complete fallbacks, in declared
   * order, and an empty list raises.
   */
  method RoleCandidates(file: ConfigFile, role: string) returns (r: Result<seq<Candidate>, RuntimeError>)
    ensures LoadConfig(file).Failure? ==> r == Failure(ConfigLoadFailed(LoadConfig(file).error))
    ensures LoadConfig(file).Success? ==> r == CandidatesOf(LoadConfig(file).value, role)
    ensures r.Success? ==> |r.value| >= 1
  {
    var config := LoadConfig(file);
    if config.Failure? {
      return Failure(ConfigLoadFailed(config.error));
    }
    r := ListCandidates(config.value, role);
  }

  /** `role_candidates` once the catalog is loaded: the complete primary, then the complete fallbacks, in order. */
  method ListCandidates(cfg: Catalog, role: string) returns (r: Result<seq<Candidate>, RuntimeError>)
    ensures r == CandidatesOf(cfg, role)
  {
    var entry := cfg.roles.Get(role);
    if entry.None? || !entry.value.NonEmpty() {
      return Failure(RoleNotConfigured(role));
    }
    var candidates: seq<Candidate> := [];
    var primary := entry.value.primary.GetOr(RefCfg(None, None));
    if primary.Complete() {
      candidates := candidates + [primary.ToCandidate()];
    }
    assert candidates == Kept(primary);
    candidates := AppendComplete(candidates, entry.value.fallbacks.GetOr([]));
    if candidates == [] {
      return Failure(NoCandidates(role));
    }
    return Success(candidates);
  }

  /**
   * The runtime's candidate list and the resolver's plan agree: a role with a valid plan lists
   * exactly that chain; an unknown role is unknown to both; and a role whose primary is
   * incomplete still lists its complete fallbacks, where the resolver raises.
   */
  lemma CandidatesMatchPlan(cfg: Catalog, role: string)
    ensures PlanOf(cfg, role).Success? ==> CandidatesOf(cfg, role) == Success(Chain(PlanOf(cfg, role).value))
    ensures PlanOf(cfg, role) == Failure(UnknownRole(role)) <==> CandidatesOf(cfg, role) == Failure(RoleNotConfigured(role))
    ensures PlanOf(cfg, role) == Failure(MissingPrimary(role)) ==>
      var fallbacks := CompleteRefs(cfg.roles.entries[role].fallbacks.GetOr([]));
      CandidatesOf(cfg, role) == if fallbacks == [] then Failure(NoCandidates(role)) else Success(fallbacks)
  {
    if PlanOf(cfg, role) == Failure(MissingPrimary(role)) {
      var entry := cfg.roles.entries[role];
      var fallbacks := CompleteRefs(entry.fallbacks.GetOr([]));
      assert Kept(entry.primary.GetOr(RefCfg(None, None))) == [];
      assert [] + fallbacks == fallbacks;
    }
  }

  /**
   * `invoke_candidate`: dispatches on the provider name; only "anthropic" and "ollama" have an
   * adapter, and any other provider fails with `ModelCallError`.
   */
  function InvokeCandidate(c: Candidate, prompt: string, anthropic: ProviderApi, ollama: ProviderApi)
    : (r: Result<string, string>)
    ensures c.provider == "anthropic" ==> r == anthropic(c.model, prompt)
    ensures c.provider == "ollama" ==> r == ollama(c.model, prompt)
    ensures r.Success? ==> c.provider == "anthropic" || c.provider == "ollama"
    ensures c.provider != "anthropic" && c.provider != "ollama" ==>
      r == Failure("Unsupported provider in runtime: " + c.provider)
  {
    if c.provider == "anthropic" then anthropic(c.model, prompt)
    else if c.provider == "ollama" then ollama(c.model, prompt)
    else Failure("Unsupported provider in runtime: " + c.provider)
  }

  const NoContent := "(No content returned.)"

  /** What one block contributes to the reply: its text, when it has a non-empty one. */
  function BlockText(b: Block): seq<string> {
    if b.text.Some? && b.text.value != [] then [b.text.value] else []
  }

  /** The non-empty texts of the blocks, in order; blocks without text contribute nothing. */
  function BlockTexts(blocks: seq<Block>): (r: seq<string>)
    ensures |r| <= |blocks|
    ensures forall t :: t in r ==> t != [] && Block(Some(t)) in blocks
  {
    if blocks == [] then []
    else
      var rest := BlockTexts(blocks[1..]);
      assert forall b :: b in blocks[1..] ==> b in blocks;
      BlockText(blocks[0]) + rest
  }

  /** Collecting keeps the blocks' order: the texts of a concatenation are the concatenated texts. */
  lemma {:induction false} BlockTextsAppend(a: seq<Block>, b: seq<Block>)
    ensures BlockTexts(a + b) == BlockTexts(a) + BlockTexts(b)
  {
    if a == [] {
      assert a + b == b;
    } else {
      assert (a + b)[1..] == a[1..] + b;
      BlockTextsAppend(a[1..], b);
      assert BlockTexts(a + b) == BlockText(a[0]) + (BlockTexts(a[1..]) + BlockTexts(b));
    }
  }

  /** A single block contributes its text exactly when that text is present and non-empty. */
  lemma BlockTextsOne(b: Block)
    ensures BlockTexts([b]) == if b.text.Some? && b.text.value != [] then [b.text.value] else []
  {
    assert [b][1..] == [];
  }

  /** One more block adds its text, if any. */
  lemma BlockTextsStep(blocks: seq<Block>, i: nat)
    requires i < |blocks|
    ensures BlockTexts(blocks[..i + 1]) == BlockTexts(blocks[..i]) + BlockText(blocks[i])
  {
    assert blocks[..i + 1] == blocks[..i] + [blocks[i]];
    BlockTextsAppend(blocks[..i], [blocks[i]]);
    BlockTextsOne(blocks[i]);
  }

  /**
   * What `_extract_anthropic_text` returns: the non-empty block texts joined by newlines and
   * stripped; never empty, and either that text, which neither begins nor ends with white
   * space, or the fixed placeholder.
   */
  function AnthropicText(blocks: seq<Block>): (r: string)
    ensures r != []
    ensures r == NoContent || (!IsSpace(r[0]) && !IsSpace(r[|r| - 1]))
  {
    var joined := Strip(Join(BlockTexts(blocks), "\n"));
    if joined == [] then NoContent else joined
  }

  /** `_extract_anthropic_text`: the loop collects the non-empty block texts in order. */
  method ExtractAnthropicText(blocks: seq<Block>) returns (r: string)
    ensures r == AnthropicText(blocks)
  {
    var chunks: seq<string> := [];
    for i := 0 to |blocks|
      invariant chunks == BlockTexts(blocks[..i])
    {
      BlockTextsStep(blocks, i);
      var text := blocks[i].text;
      if text.Some? && text.value != [] {
        chunks := chunks + [text.value];
      }
    }
    assert blocks[..|blocks|] == blocks;
    var joined := Strip(Join(chunks, "\n"));
    r := if joined == [] then NoContent else joined;
  }

  /** A response without any text gives the placeholder; one trimmed text block gives that text. */
  lemma ExtractAnthropicTextCases(blocks: seq<Block>, t: string)
    ensures (forall i :: 0 <= i < |blocks| ==> blocks[i].text.None? || blocks[i].text == Some([])) ==>
      AnthropicText(blocks) == NoContent
    ensures t != [] && !IsSpace(t[0]) && !IsSpace(t[|t| - 1]) && blocks == [Block(Some(t))] ==>
      AnthropicText(blocks) == t
  {
    if forall i :: 0 <= i < |blocks| ==> blocks[i].text.None? || blocks[i].text == Some([]) {
      NoTexts(blocks);
    }
    if t != [] && !IsSpace(t[0]) && !IsSpace(t[|t| - 1]) && blocks == [Block(Some(t))] {
      assert BlockTexts(blocks) == [t];
      StripKeepsTrimmed(t);
    }
  }

  lemma {:induction false} NoTexts(blocks: seq<Block>)
    requires forall i :: 0 <= i < |blocks| ==> blocks[i].text.None? || blocks[i].text == Some([])
    ensures BlockTexts(blocks) == []
  {
    if blocks != [] {
      NoTexts(blocks[1..]);
    }
  }

  /** Every block text is white space (or absent). */
  predicate BlankBlocks(blocks: seq<Block>) {
    forall i :: 0 <= i < |blocks| && blocks[i].text.Some? ==> AllSpace(blocks[i].text.value)
  }

  /** Every text is white space. */
  predicate BlankTexts(ts: seq<string>) {
    forall i :: 0 <= i < |ts| ==> AllSpace(ts[i])
  }

  lemma BlankTextsConcat(a: seq<string>, b: seq<string>)
    ensures BlankTexts(a + b) <==> BlankTexts(a) && BlankTexts(b)
  {
    assert forall i :: 0 <= i < |a| ==> (a + b)[i] == a[i];
    assert forall i :: 0 <= i < |b| ==> (a + b)[|a| + i] == b[i];
  }

  /** The kept texts are all white space exactly when every block text is. */
  lemma {:induction false} BlockTextsBlank(blocks: seq<Block>)
    ensures BlankBlocks(blocks) <==> BlankTexts(BlockTexts(blocks))
  {
    if blocks != [] {
      var rest := blocks[1..];
      BlockTextsBlank(rest);
      assert BlockTexts(blocks) == BlockText(blocks[0]) + BlockTexts(rest);
      BlankTextsConcat(BlockText(blocks[0]), BlockTexts(rest));
      assert BlankTexts(BlockText(blocks[0])) <==> (blocks[0].text.Some? ==> AllSpace(blocks[0].text.value));
      assert BlankBlocks(blocks) <==> (blocks[0].text.Some? ==> AllSpace(blocks[0].text.value)) && BlankBlocks(rest) by {
        forall i | 1 <= i < |blocks| ensures blocks[i] == rest[i - 1] {
        }
      }
    }
  }

  /**
   * The placeholder stands in exactly for a response whose block texts are all white space;
   * any other response gives its stripped, newline-joined text.
   */
  lemma ExtractAnthropicTextPlaceholder(blocks: seq<Block>)
    ensures BlankBlocks(blocks) <==> Strip(Join(BlockTexts(blocks), "\n")) == []
    ensures BlankBlocks(blocks) ==> AnthropicText(blocks) == NoContent
    ensures !BlankBlocks(blocks) ==> AnthropicText(blocks) == Strip(Join(BlockTexts(blocks), "\n"))
  {
    var texts := BlockTexts(blocks);
    BlockTextsBlank(blocks);
    JoinAllSpace(texts, "\n");
    StripEmptyIff(Join(texts, "\n"));
  }

  /** The blocks carrying the given texts, one each, in order. */
  function TextBlocks(ts: seq<string>): seq<Block> {
    seq(|ts|, i requires 0 <= i < |ts| => Block(Some(ts[i])))
  }

  /** Blocks that all carry non-empty texts contribute exactly those texts. */
  lemma {:induction false} BlockTextsOfTexts(ts: seq<string>)
    requires forall i :: 0 <= i < |ts| ==> ts[i] != []
    ensures BlockTexts(TextBlocks(ts)) == ts
  {
    if ts != [] {
      assert TextBlocks(ts)[1..] == TextBlocks(ts[1..]);
      BlockTextsOfTexts(ts[1..]);
      assert [ts[0]] + ts[1..] == ts;
    }
  }

  /**
   * Non-empty texts whose newline-joined whole neither begins nor ends with white space come
   * back joined by newlines.
   */
  lemma ExtractAnthropicTextJoins(ts: seq<string>)
    requires ts != [] && forall i :: 0 <= i < |ts| ==> ts[i] != []
    requires !IsSpace(ts[0][0]) && !IsSpace(ts[|ts| - 1][|ts[|ts| - 1]| - 1])
    ensures AnthropicText(TextBlocks(ts)) == Join(ts, "\n")
  {
    BlockTextsOfTexts(ts);
    var j := Join(ts, "\n");
    JoinEnds(ts, "\n");
    StripKeepsTrimmed(j);
  }

  /** Invoking candidates with one prompt and one pair of provider APIs. */
  function Attempt(prompt: string, anthropic: ProviderApi, ollama: ProviderApi): Candidate -> Result<string, string> {
    c => InvokeCandidate(c, prompt, anthropic, ollama)
  }

  /** Whether invoking a candidate returns an answer. */
  function Succeeds(invoke: Candidate -> Result<string, string>): Candidate -> bool {
    c => invoke(c).Success?
  }

  /** The message of a failed call. */
  function FailureMessage(r: Result<string, string>): string {
    match r
    case Failure(m) => m
    case Success(_) => ""
  }

  /** The line recorded for a failed candidate: `provider/model: message`. */
  function ErrorLine(c: Candidate, message: string): string {
    c.provider + "/" + c.model + ": " + message
  }

  /** The error lines for `cands`, in order. */
  function ErrorLines(cands: seq<Candidate>, invoke: Candidate -> Result<string, string>): seq<string> {
    if cands == [] then []
    else
      var last := cands[|cands| - 1];
      ErrorLines(cands[..|cands| - 1], invoke) + [ErrorLine(last, FailureMessage(invoke(last)))]
  }

  /** Exactly one error line per candidate, in the candidates' order. */
  lemma {:induction false} ErrorLinesOnePerCandidate(cands: seq<Candidate>, invoke: Candidate -> Result<string, string>)
    ensures |ErrorLines(cands, invoke)| == |cands|
    ensures forall i :: 0 <= i < |cands| ==>
      ErrorLines(cands, invoke)[i] == ErrorLine(cands[i], FailureMessage(invoke(cands[i])))
  {
    if cands != [] {
      var init := cands[..|cands| - 1];
      ErrorLinesOnePerCandidate(init, invoke);
      forall i | 0 <= i < |init| ensures cands[i] == init[i] {
      }
    }
  }

  /**
   * The loop of `complete_with_fallback`: invokes the candidates in order until one answers.
   * The answer is the first success in list order and no later candidate is invoked; when all
   * fail, every candidate was invoked once and one error line is kept per candidate, in order.
   */
  method TryInOrder(cands: seq<Candidate>, invoke: Candidate -> Result<string, string>)
    returns (answer: Option<(string, Candidate)>, invoked: seq<Candidate>, errors: seq<string>)
    ensures match FirstIndex(cands, Succeeds(invoke))
      case Some(k) =>
        && answer == Some((invoke(cands[k]).value, cands[k]))
        && invoked == cands[..k + 1]
        && errors == ErrorLines(cands[..k], invoke)
      case None =>
        && answer == None
        && invoked == cands
        && errors == ErrorLines(cands, invoke)
  {
    invoked, errors := [], [];
    for i := 0 to |cands|
      invariant invoked == cands[..i]
      invariant errors == ErrorLines(cands[..i], invoke)
      invariant forall j :: 0 <= j < i ==> !Succeeds(invoke)(cands[j])
    {
      var candidate := cands[i];
      invoked := invoked + [candidate];
      assert cands[..i + 1][..i] == cands[..i];
      var result := invoke(candidate);
      if result.Success? {
        assert Succeeds(invoke)(cands[i]);
        return Some((result.value, candidate)), invoked, errors;
      }
      errors := errors + [ErrorLine(candidate, result.error)];
    }
    assert cands[..|cands|] == cands;
    return None, invoked, errors;
  }

  /** The single alert sent when every candidate fails. */
  function ExhaustedAlert(cfg: BotRuntimeConfig, errors: seq<string>): Alert {
    Alert(cfg.alertWebhook, "Open Fall Triggered", "All ACE role providers failed during Discord request.", errors, cfg.role)
  }

  /**
   * `complete_with_fallback`, with the configuration file as `file`, the provider APIs as
   * oracles, and the candidates it invokes and the alerts it sends as logs. The answer comes from
   * the first candidate, in list order, whose call succeeds, and no later one is invoked. When
   * all fail, each was invoked once, exactly one alert carries one error line per candidate, in
   * order, with the role, and the call raises. A candidate-list error raises at once.
   */
  method CompleteWithFallback(file: ConfigFile, cfg: BotRuntimeConfig, prompt: string, anthropic: ProviderApi, ollama: ProviderApi)
    returns (r: Result<(string, Candidate), RuntimeError>, invoked: seq<Candidate>, alerts: seq<Alert>)
    ensures LoadConfig(file).Failure? ==>
      r == Failure(ConfigLoadFailed(LoadConfig(file).error)) && invoked == [] && alerts == []
    ensures LoadConfig(file).Success? && CandidatesOf(LoadConfig(file).value, cfg.role).Failure? ==>
      r == Failure(CandidatesOf(LoadConfig(file).value, cfg.role).error) && invoked == [] && alerts == []
    ensures LoadConfig(file).Success? && CandidatesOf(LoadConfig(file).value, cfg.role).Success? ==>
      var cands := CandidatesOf(LoadConfig(file).value, cfg.role).value;
      var invoke := Attempt(prompt, anthropic, ollama);
      match FirstIndex(cands, Succeeds(invoke))
      case Some(k) =>
        && r == Success((invoke(cands[k]).value, cands[k]))
        && invoked == cands[..k + 1]
        && alerts == []
      case None =>
        && r == Failure(AllCandidatesFailed)
        && invoked == cands
        && alerts == [ExhaustedAlert(cfg, ErrorLines(cands, invoke))]
  {
    alerts := [];
    var candidates := RoleCandidates(file, cfg.role);
    if candidates.Failure? {
      return Failure(candidates.error), [], alerts;
    }
    var answer, errors;
    answer, invoked, errors := TryInOrder(candidates.value, Attempt(prompt, anthropic, ollama));
    if answer.Some? {
      return Success(answer.value), invoked, alerts;
    }
    alerts := alerts + [ExhaustedAlert(cfg, errors)];
    return Failure(AllCandidatesFailed), invoked, alerts;
  }

  /** How the bot is addressed: `<@id>`, and the nickname form `<@!id>`. */
  function Mention(id: int): string {
    "<@" + IntToString(id) + ">"
  }

  function NickMention(id: int): string {
    "<@!" + IntToString(id) + ">"
  }

  /**
   * `_should_respond`: always when answering in all channels, in an allowed channel, and
   * otherwise exactly when the message starts by mentioning the bot. (The source's test that the
   * allowed set is non-empty changes nothing: no channel is in the empty set.)
   */
  function ShouldRespond(channelId: int, content: string, botId: int, cfg: BotRuntimeConfig): (r: bool)
    ensures r <==>
      || cfg.respondInAllChannels
      || channelId in cfg.allowedChannels
      || Mention(botId) <= content
      || NickMention(botId) <= content
  {
    if cfg.respondInAllChannels then true
    else if |cfg.allowedChannels| > 0 && channelId in cfg.allowedChannels then true
    else Mention(botId) <= content || NickMention(botId) <= content
  }

  const DefaultPrompt := "Hello ACE. Please share your current status."

  /**
   * `_clean_prompt`: removes the `<@id>` mentions, then the `<@!id>` ones, and strips; what
   * remains is never empty and neither begins nor ends with white space, or is the default
   * greeting. Each removal is one left-to-right pass, so a mention that a removal brings
   * together survives it (see `CleanPromptNested`).
   */
  function CleanPrompt(content: string, botId: int): (r: string)
    ensures r != []
    ensures r == DefaultPrompt || (!IsSpace(r[0]) && !IsSpace(r[|r| - 1]))
  {
    var prompt := Strip(RemoveAll(RemoveAll(content, Mention(botId)), NickMention(botId)));
    if prompt == [] then DefaultPrompt else prompt
  }

  lemma NoMentionIn(s: string, id: int)
    requires '<' !in s
    ensures RemoveAll(s, Mention(id)) == s
    ensures RemoveAll(s, NickMention(id)) == s
  {
    forall i | 0 <= i <= |s| ensures !(Mention(id) <= s[i..]) && !(NickMention(id) <= s[i..]) {
      if i < |s| {
        assert s[i..][0] == s[i];
      }
    }
    RemoveAllAbsent(s, Mention(id));
    RemoveAllAbsent(s, NickMention(id));
  }

  /** The prompt a message cleans to when its remaining text is `rest`. */
  function PromptOrGreeting(rest: string): string {
    if Strip(rest) == [] then DefaultPrompt else Strip(rest)
  }

  /** The prompt is fixed by what remains once both kinds of mention are removed. */
  lemma CleanPromptOf(content: string, id: int, rest: string)
    requires RemoveAll(RemoveAll(content, Mention(id)), NickMention(id)) == rest
    ensures CleanPrompt(content, id) == PromptOrGreeting(rest)
  {
  }

  /** A message without `<` holds no mention: it cleans to its stripped text, or the greeting. */
  lemma CleanPromptPlain(content: string, id: int)
    requires '<' !in content
    ensures CleanPrompt(content, id) == PromptOrGreeting(content)
  {
    NoMentionIn(content, id);
    CleanPromptOf(content, id, content);
  }

  /**
   * Text without `<` interleaved with mentions of the bot, in either form, cleans to the text
   * alone, stripped, or to the greeting when nothing else remains.
   */
  lemma CleanPromptJoin(pieces: seq<string>, id: int)
    requires forall i :: 0 <= i < |pieces| ==> '<' !in pieces[i]
    ensures CleanPrompt(Join(pieces, Mention(id)), id) == PromptOrGreeting(Join(pieces, ""))
    ensures CleanPrompt(Join(pieces, NickMention(id)), id) == PromptOrGreeting(Join(pieces, ""))
  {
    MentionJoinRemoved(pieces, id);
    CleanPromptOf(Join(pieces, Mention(id)), id, Join(pieces, ""));
    NickJoinRemoved(pieces, id);
    CleanPromptOf(Join(pieces, NickMention(id)), id, Join(pieces, ""));
  }

  /** Both removals take text joined by plain mentions back to the text alone. */
  lemma MentionJoinRemoved(pieces: seq<string>, id: int)
    requires forall i :: 0 <= i < |pieces| ==> '<' !in pieces[i]
    ensures RemoveAll(RemoveAll(Join(pieces, Mention(id)), Mention(id)), NickMention(id)) == Join(pieces, "")
  {
    var m := Mention(id);
    assert m[0] == '<';
    RemoveAllJoin(pieces, m);
    JoinFree(pieces, "", '<');
    NoMentionIn(Join(pieces, ""), id);
  }

  /** Both removals take text joined by nickname mentions back to the text alone. */
  lemma NickJoinRemoved(pieces: seq<string>, id: int)
    requires forall i :: 0 <= i < |pieces| ==> '<' !in pieces[i]
    ensures RemoveAll(RemoveAll(Join(pieces, NickMention(id)), Mention(id)), NickMention(id)) == Join(pieces, "")
  {
    var n := NickMention(id);
    assert n[0] == '<';
    NickJoinSurvives(pieces, id);
    RemoveAllJoin(pieces, n);
  }

  /** Removing the plain mention leaves text joined by nickname mentions unchanged. */
  lemma {:induction false} NickJoinSurvives(pieces: seq<string>, id: int)
    requires forall i :: 0 <= i < |pieces| ==> '<' !in pieces[i]
    ensures RemoveAll(Join(pieces, NickMention(id)), Mention(id)) == Join(pieces, NickMention(id))
  {
    var m, n := Mention(id), NickMention(id);
    assert m[0] == '<';
    if |pieces| == 1 {
      NoMentionIn(pieces[0], id);
    } else if |pieces| > 1 {
      var a, rest := pieces[0], Join(pieces[1..], n);
      assert Join(pieces, n) == a + (n + rest);
      RemoveAllSkip(a, n + rest, m);
      NickJoinSurvives(pieces[1..], id);
      NickHeadSurvives(id, rest);
    }
  }

  /** A nickname mention at the front survives the removal of the plain mention. */
  lemma NickHeadSurvives(id: int, rest: string)
    requires RemoveAll(rest, Mention(id)) == rest
    ensures RemoveAll(NickMention(id) + rest, Mention(id)) == NickMention(id) + rest
  {
    var m, n := Mention(id), NickMention(id);
    var s := n + rest;
    MentionNotAtNick(id, rest);
    assert RemoveAll(s, m) == [s[0]] + RemoveAll(s[1..], m);
    assert s[1..] == n[1..] + rest;
    MentionNotInNick(id);
    RemoveAllSkip(n[1..], rest, m);
    assert [n[0]] + n[1..] == n;
  }

  /** Text that starts with the nickname mention does not start with the plain one. */
  lemma MentionNotAtNick(id: int, rest: string)
    ensures !(Mention(id) <= NickMention(id) + rest)
  {
    var m, n := Mention(id), NickMention(id);
    MentionNotInNick(id);
    assert |m| < |n| && (n + rest)[..|m|] == n[..|m|];
  }

  /** The removal does not rescan: a mention nested inside another comes back whole. */
  lemma CleanPromptNested()
    ensures CleanPrompt("<@<@1>1>", 1) == "<@1>"
  {
    MentionsOfOne();
    NestedMentionRemoved();
    NickMentionAbsent();
    CleanPromptOf("<@<@1>1>", 1, "<@1>");
    StripKeepsTrimmed("<@1>");
  }

  lemma MentionsOfOne()
    ensures Mention(1) == "<@1>" && NickMention(1) == "<@!1>"
  {
    assert NatToString(1) == [DigitChar(1)] == "1";
  }

  lemma NickMentionAbsent()
    ensures RemoveAll("<@1>", "<@!1>") == "<@1>"
  {
    MentionsOfOne();
    NoMentionIn("@1>", 1);
    assert "<@1>"[1..] == "@1>";
    assert RemoveAll("<@1>", "<@!1>") == ['<'] + RemoveAll("@1>", "<@!1>");
  }

  lemma NestedMentionRemoved()
    ensures RemoveAll("<@<@1>1>", "<@1>") == "<@1>"
  {
    var p := "<@1>";
    assert RemoveAll(">", p) == ">";
    assert RemoveAll("1>", p) == "1>";
    assert RemoveAll("<@1>1>", p) == "1>" by {
      assert p <= "<@1>1>" && "<@1>1>"[4..] == "1>";
    }
    assert RemoveAll("@<@1>1>", p) == "@1>" by {
      assert !(p <= "@<@1>1>") && "@<@1>1>"[1..] == "<@1>1>";
    }
    assert RemoveAll("<@<@1>1>", p) == "<@1>" by {
      assert !(p <= "<@<@1>1>") && "<@<@1>1>"[1..] == "@<@1>1>";
    }
  }

  /** A message that addresses the bot and then asks something yields that question, stripped. */
  lemma CleanPromptAfterMention(id: int, text: string)
    requires '<' !in text
    requires Strip(text) != []
    ensures CleanPrompt(Mention(id) + " " + text, id) == Strip(text)
  {
    var rest := " " + text;
    assert Mention(id) + " " + text == Mention(id) + rest;
    RemovalsAfterMention(id, rest);
    CleanPromptOf(Mention(id) + rest, id, rest);
    StripSkipsSpace(' ', text);
  }

  /** Both removals take a leading mention off text that holds no other `<`. */
  lemma RemovalsAfterMention(id: int, rest: string)
    requires '<' !in rest
    ensures RemoveAll(RemoveAll(Mention(id) + rest, Mention(id)), NickMention(id)) == rest
  {
    RemoveAllPrefix(Mention(id), rest);
    NoMentionIn(rest, id);
  }

  /** A message that only addresses the bot yields the default greeting. */
  lemma CleanPromptMentionOnly(id: int)
    ensures CleanPrompt(Mention(id), id) == DefaultPrompt
  {
    var m := Mention(id);
    assert m[|m|..] == [];
    assert RemoveAll(m, m) == [];
  }

  /** A message that only addresses the bot by its nickname form yields the default greeting. */
  lemma CleanPromptNickMentionOnly(id: int)
    ensures CleanPrompt(NickMention(id), id) == DefaultPrompt
  {
    var n := NickMention(id);
    NickMentionSurvives(id);
    assert n[|n|..] == [];
    assert RemoveAll(n, n) == [];
  }

  /** Removing the plain mention leaves the nickname mention whole. */
  lemma NickMentionSurvives(id: int)
    ensures RemoveAll(NickMention(id), Mention(id)) == NickMention(id)
  {
    var n := NickMention(id);
    MentionNotInNick(id);
    NoMentionIn(n[1..], id);
    assert [n[0]] + n[1..] == n;
  }

  /** The nickname mention does not start with the plain mention, and holds no other `<`. */
  lemma MentionNotInNick(id: int)
    ensures !(Mention(id) <= NickMention(id))
    ensures '<' !in NickMention(id)[1..]
  {
    var m, n := Mention(id), NickMention(id);
    IntToStringShape(id);
    assert m[2] != n[2];
    assert n[1..] == "@!" + IntToString(id) + ">";
    assert '<' !in IntToString(id);
  }

  /**
   * `_chunk_message`: pieces of at most `size` characters whose concatenation is the text, every
   * piece but the last exactly `size` long. A zero size makes `range` raise (`None`); a negative
   * one yields no piece.
   */
  method ChunkMessage(text: string, size: int) returns (r: Option<seq<string>>)
    ensures r.None? <==> size == 0
    ensures size < 0 ==> r == Some([])
    ensures size > 0 ==> r.Some? && Join(r.value, "") == text
    ensures size > 0 ==> r.Some? && forall i :: 0 <= i < |r.value| ==> 0 < |r.value[i]| <= size
    ensures size > 0 ==> r.Some? && forall i :: 0 <= i < |r.value| - 1 ==> |r.value[i]| == size
  {
    if size == 0 {
      return None;
    }
    if size < 0 {
      return Some([]);
    }
    var chunks: seq<string> := [];
    var i := 0;
    while i < |text|
      invariant 0 <= i <= |text|
      invariant Join(chunks, "") == text[..i]
      invariant forall j :: 0 <= j < |chunks| ==> 0 < |chunks[j]| <= size
      invariant forall j :: 0 <= j < |chunks| - 1 ==> |chunks[j]| == size
      invariant chunks != [] && |chunks[|chunks| - 1]| < size ==> i == |text|
      decreases |text| - i
    {
      var end := if i + size <= |text| then i + size else |text|;
      JoinAppend(chunks, text[i..end], "");
      assert text[..i] + text[i..end] == text[..end];
      chunks := chunks + [text[i..end]];
      i := end;
    }
    assert text[..|text|] == text;
    return Some(chunks);
  }
}

=== FILE: model_router.dfy ===
/**
 * Provider/model resolution with role-aware fallbacks, and the preflight issue list
 * (src/model_router.py).
 *
 * The catalog is the parsed `config/providers.json`: a `providers` object (name to entry), a
 * `roles` object (name to primary and fallbacks) and a `defaults` object. Every key the code
 * reads is an `Option` field (`None` when the key is absent), so that each `dict.get(key,
 * default)` of the source is a `GetOr(default)` here.
 */
module ModelRouter {
  import opened Wrappers
  import opened Seqs

  /** Python truthiness of an optional string: present and not empty. */
  predicate Present(s: Option<string>) {
    s.Some? && s.value != ""
  }

  /**
   * A JSON object read as a Python dict: `keys` in document order (the iteration order of the
   * dict `json.loads` builds) and `entries` from key to value.
   */
  datatype Obj<V> = Obj(keys: seq<string>, entries: map<string, V>) {
    ghost predicate Valid() {
      && (forall i, j :: 0 <= i < j < |keys| ==> keys[i] != keys[j])
      && (forall k :: k in entries <==> k in keys)
    }

    /** `d.get(k)`. */
    function Get(k: string): Option<V> {
      if k in entries then Some(entries[k]) else None
    }
  }

  /** One entry of `providers`; `otherKeys` says whether the object has keys the code never reads. */
  datatype ProviderCfg = ProviderCfg(
    enabled: Option<bool>,
    models: Option<seq<string>>,
    requiresKeyEnv: Option<string>,
    baseUrlEnv: Option<string>,
    otherKeys: bool)
  {
    /** Python truthiness of the entry: false only for the empty object `{}`. */
    predicate NonEmpty() {
      enabled.Some? || models.Some? || requiresKeyEnv.Some? || baseUrlEnv.Some? || otherKeys
    }

    /** `entry.get("enabled", False)` is truthy. */
    predicate IsEnabled() {
      enabled == Some(true)
    }
  }

  /** A `{provider, model}` object: a role's primary or one of its fallbacks. */
  datatype RefCfg = RefCfg(provider: Option<string>, model: Option<string>) {
    /** Both `provider` and `model` are truthy. */
    predicate Complete() {
      Present(provider) && Present(model)
    }

    function ToCandidate(): Candidate
      requires Complete()
    {
      Candidate(provider.value, model.value)
    }
  }

  /** One entry of `roles`. */
  datatype RoleCfg = RoleCfg(primary: Option<RefCfg>, fallbacks: Option<seq<RefCfg>>, otherKeys: bool) {
    /** Python truthiness of the entry: false only for the empty object `{}`. */
    predicate NonEmpty() {
      primary.Some? || fallbacks.Some? || otherKeys
    }
  }

  datatype Defaults = Defaults(role: Option<string>)

  /** The catalog; an absent `providers` or `roles` section is an empty object. */
  datatype Catalog = Catalog(providers: Obj<ProviderCfg>, roles: Obj<RoleCfg>, defaults: Defaults)

  /**
   * What lies at the configuration path: nothing, bytes that are not UTF-8, or a text that
   * parses as JSON or not.
   */
  datatype ConfigFile = Missing | NotUtf8 | Found(json: Option<Catalog>)

  /** A concrete (provider, model) pair. */
  datatype Candidate = Candidate(provider: string, model: string)

  /** A role's candidate chain: the head to try first, then the fallbacks in declared order. */
  datatype Plan = Plan(primary: Candidate, fallbacks: seq<Candidate>)

  datatype ResolvedModel = ResolvedModel(provider: string, model: string, fromFallback: bool, role: Option<string>)

  /** The causes of `ModelResolutionError`, one per message the source raises. */
  datatype ResolutionError =
    | ConfigNotFound
    | InvalidJson
    | UnknownRole(role: string)
    | MissingPrimary(role: string)
    | NoRoleSelected
    | Unavailable(requested: Candidate)

  /**
   * What `load_config` raises: `ModelResolutionError` with its cause, or the
   * `UnicodeDecodeError` of `read_text`, which the handler for `JSONDecodeError` lets through.
   */
  datatype LoadError = Raised(cause: ResolutionError) | UndecodableText

  /**
   * `load_config`: fails when the file is absent, is not UTF-8 or is not JSON, else yields the
   * document. Only the absent file and the invalid JSON become `ModelResolutionError`.
   */
  function LoadConfig(file: ConfigFile): (r: Result<Catalog, LoadError>)
    ensures r.Success? <==> file.Found? && file.json.Some?
    ensures r.Success? ==> r.value == file.json.value
    ensures file.Missing? ==> r == Failure(Raised(ConfigNotFound))
    ensures file.NotUtf8? ==> r == Failure(UndecodableText)
    ensures file.Found? && file.json.None? ==> r == Failure(Raised(InvalidJson))
  {
    match file
    case Missing => Failure(Raised(ConfigNotFound))
    case NotUtf8 => Failure(UndecodableText)
    case Found(None) => Failure(Raised(InvalidJson))
    case Found(Some(doc)) => Success(doc)
  }

  /** `_provider_cfg`: the entry `providers` holds for the name, if any. */
  function ProviderCfgOf(cfg: Catalog, provider: string): (r: Option<ProviderCfg>)
    ensures r.Some? <==> provider in cfg.providers.entries
    ensures r.Some? ==> r.value == cfg.providers.entries[provider]
  {
    cfg.providers.Get(provider)
  }

  /**
   * `_model_available`: the static usability test. The entry must exist and be enabled (an
   * absent `enabled` counts as false), and the model must be listed in its `models`.
   */
  function ModelAvailable(cfg: Catalog, c: Candidate): (ok: bool)
    ensures ok <==>
      && c.provider in cfg.providers.entries
      && cfg.providers.entries[c.provider].enabled == Some(true)
      && c.model in cfg.providers.entries[c.provider].models.GetOr([])
  {
    match ProviderCfgOf(cfg, c.provider)
    case None => false
    case Some(entry) =>
      if !entry.NonEmpty() then false
      else if !entry.IsEnabled() then false
      else c.model in entry.models.GetOr([])
  }

  /** `ModelAvailable` for a fixed catalog, as a predicate to search a chain with. */
  function AvailableIn(cfg: Catalog): Candidate -> bool {
    c => ModelAvailable(cfg, c)
  }

  /** The candidate a `{provider, model}` object contributes: itself if complete, else nothing. */
  function Kept(x: RefCfg): seq<Candidate> {
    if x.Complete() then [x.ToCandidate()] else []
  }

  /** The complete `{provider, model}` objects among `refs`, as candidates, in order. */
  function CompleteRefs(refs: seq<RefCfg>): (r: seq<Candidate>)
    ensures |r| <= |refs|
  {
    if refs == [] then [] else Kept(refs[0]) + CompleteRefs(refs[1..])
  }

  /** Filtering keeps declared order: the filter of a concatenation is the concatenation of the filters. */
  lemma {:induction false} CompleteRefsAppend(a: seq<RefCfg>, b: seq<RefCfg>)
    ensures CompleteRefs(a + b) == CompleteRefs(a) + CompleteRefs(b)
  {
    if a == [] {
      assert a + b == b;
    } else {
      assert (a + b)[1..] == a[1..] + b;
      CompleteRefsAppend(a[1..], b);
      calc {
        CompleteRefs(a + b);
        Kept(a[0]) + CompleteRefs(a[1..] + b);
        Kept(a[0]) + (CompleteRefs(a[1..]) + CompleteRefs(b));
        (Kept(a[0]) + CompleteRefs(a[1..])) + CompleteRefs(b);
      }
    }
  }

  /** Filtering one more entry adds that entry's candidate, if any. */
  lemma CompleteRefsStep(refs: seq<RefCfg>, i: nat)
    requires i < |refs|
    ensures CompleteRefs(refs[..i + 1]) == CompleteRefs(refs[..i]) + Kept(refs[i])
  {
    assert refs[..i + 1] == refs[..i] + [refs[i]];
    CompleteRefsAppend(refs[..i], [refs[i]]);
    assert CompleteRefs([refs[i]]) == Kept(refs[i]) + CompleteRefs([]);
  }

  /** A candidate is kept exactly when some complete entry names it. */
  lemma {:induction false} CompleteRefsMembers(refs: seq<RefCfg>, c: Candidate)
    ensures c in CompleteRefs(refs) <==> exists x :: x in refs && x.Complete() && x.ToCandidate() == c
  {
    if refs != [] {
      CompleteRefsMembers(refs[1..], c);
      assert refs == [refs[0]] + refs[1..];
      assert forall x :: x in refs <==> x == refs[0] || x in refs[1..];
    }
  }

  /** The plan `_role_plan` computes, or the error it raises. */
  function PlanOf(cfg: Catalog, role: string): Result<Plan, ResolutionError> {
    match cfg.roles.Get(role)
    case None => Failure(UnknownRole(role))
    case Some(entry) =>
      if !entry.NonEmpty() then Failure(UnknownRole(role))
      else
        var primary := entry.primary.GetOr(RefCfg(None, None));
        if !primary.Complete() then Failure(MissingPrimary(role))
        else Success(Plan(primary.ToCandidate(), CompleteRefs(entry.fallbacks.GetOr([]))))
  }

  /**
   * `_role_plan`: an unknown (or empty) role and a primary without a provider or a model raise;
   * otherwise the primary comes with the complete fallbacks, collected in declared order.
   */
  method RolePlan(cfg: Catalog, role: string) returns (r: Result<Plan, ResolutionError>)
    ensures r == PlanOf(cfg, role)
    ensures r.Failure? ==> r.error == UnknownRole(role) || r.error == MissingPrimary(role)
    ensures r.Success? ==> role in cfg.roles.entries
  {
    var entry := cfg.roles.Get(role);
    if entry.None? || !entry.value.NonEmpty() {
      return Failure(UnknownRole(role));
    }
    var primary := entry.value.primary.GetOr(RefCfg(None, None));
    if !primary.Complete() {
      return Failure(MissingPrimary(role));
    }
    var fallbacks := AppendComplete([], entry.value.fallbacks.GetOr([]));
    assert fallbacks == CompleteRefs(entry.value.fallbacks.GetOr([]));
    return Success(Plan(primary.ToCandidate(), fallbacks));
  }

  /**
   * The fallback loop shared by `_role_plan` and `role_candidates`: append each entry with a
   * truthy provider and model to `list`, in declared order.
   */
  method AppendComplete(list: seq<Candidate>, items: seq<RefCfg>) returns (out: seq<Candidate>)
    ensures out == list + CompleteRefs(items)
  {
    out := list;
    for i := 0 to |items|
      invariant out == list + CompleteRefs(items[..i])
    {
      CompleteRefsStep(items, i);
      if items[i].Complete() {
        out := out + [items[i].ToCandidate()];
      }
    }
    assert items[..|items|] == items;
  }

  /** The role whose fallbacks follow an explicit pair: `role or defaults.get("role", "ace")`. */
  function FallbackRole(cfg: Catalog, role: Option<string>): string {
    if Present(role) then role.value else cfg.defaults.role.GetOr("ace")
  }

  /** The role selected without an explicit pair, and the role reported: `role or defaults.get("role")`. */
  function EffectiveRole(cfg: Catalog, role: Option<string>): Option<string> {
    if Present(role) then role else cfg.defaults.role
  }

  /**
   * `_iter_candidates`: an explicit pair (both parts truthy) heads the fallbacks of the
   * fallback role; otherwise the selected role's own plan, and no role at all raises.
   */
  function IterCandidates(cfg: Catalog, role: Option<string>, provider: Option<string>, model: Option<string>)
    : (r: Result<Plan, ResolutionError>)
    ensures Present(provider) && Present(model) ==>
      (r.Success? <==> PlanOf(cfg, FallbackRole(cfg, role)).Success?)
    ensures Present(provider) && Present(model) && r.Failure? ==>
      r.error == PlanOf(cfg, FallbackRole(cfg, role)).error
    ensures Present(provider) && Present(model) && r.Success? ==>
      && r.value.primary == Candidate(provider.value, model.value)
      && r.value.fallbacks == PlanOf(cfg, FallbackRole(cfg, role)).value.fallbacks
    ensures !(Present(provider) && Present(model)) && !Present(EffectiveRole(cfg, role)) ==>
      r == Failure(NoRoleSelected)
    ensures !(Present(provider) && Present(model)) && Present(EffectiveRole(cfg, role)) ==>
      r == PlanOf(cfg, EffectiveRole(cfg, role).value)
  {
    if Present(provider) && Present(model) then
      match PlanOf(cfg, FallbackRole(cfg, role))
      case Failure(e) => Failure(e)
      case Success(plan) => Success(Plan(Candidate(provider.value, model.value), plan.fallbacks))
    else
      var roleName := EffectiveRole(cfg, role);
      if !Present(roleName) then Failure(NoRoleSelected)
      else PlanOf(cfg, roleName.value)
  }

  /** The whole chain in probing order. */
  function Chain(plan: Plan): seq<Candidate> {
    [plan.primary] + plan.fallbacks
  }

  /**
   * Reference definition of resolution: the first available candidate of the whole chain,
   * flagged as a fallback exactly when it is not the head.
   */
  function Resolve(cfg: Catalog, role: Option<string>, provider: Option<string>, model: Option<string>)
    : Result<ResolvedModel, ResolutionError>
  {
    match IterCandidates(cfg, role, provider, model)
    case Failure(e) => Failure(e)
    case Success(plan) => ResolveOver(cfg, plan, EffectiveRole(cfg, role))
  }

  /** The first available candidate of a plan's chain, reported with `role`. */
  function ResolveOver(cfg: Catalog, plan: Plan, role: Option<string>): Result<ResolvedModel, ResolutionError> {
    match FirstIndex(Chain(plan), AvailableIn(cfg))
    case Some(k) => Success(ResolvedModel(Chain(plan)[k].provider, Chain(plan)[k].model, k > 0, role))
    case None => Failure(Unavailable(plan.primary))
  }

  /**
   * `resolve_runtime_model`: the head if available, else the first available fallback in
   * declared order, else `Unavailable` naming the head.
   */
  method ResolveRuntimeModel(cfg: Catalog, role: Option<string>, provider: Option<string>, model: Option<string>)
    returns (r: Result<ResolvedModel, ResolutionError>)
    ensures r == Resolve(cfg, role, provider, model)
  {
    var chain := IterCandidates(cfg, role, provider, model);
    if chain.Failure? {
      return Failure(chain.error);
    }
    r := WalkChain(cfg, chain.value, EffectiveRole(cfg, role));
  }

  /** The search loop of `resolve_runtime_model`: the first available model of the chain wins. */
  method WalkChain(cfg: Catalog, plan: Plan, effectiveRole: Option<string>)
    returns (r: Result<ResolvedModel, ResolutionError>)
    ensures r == ResolveOver(cfg, plan, effectiveRole)
  {
    ResolveWalksChain(cfg, plan, effectiveRole);
    var primary, fallbacks := plan.primary, plan.fallbacks;
    if ModelAvailable(cfg, primary) {
      return Success(ResolvedModel(primary.provider, primary.model, false, effectiveRole));
    }
    for i := 0 to |fallbacks|
      invariant forall j :: 0 <= j < i ==> !ModelAvailable(cfg, fallbacks[j])
    {
      if ModelAvailable(cfg, fallbacks[i]) {
        return Success(ResolvedModel(fallbacks[i].provider, fallbacks[i].model, true, effectiveRole));
      }
    }
    return Failure(Unavailable(primary));
  }

  /**
   * Resolution over a chain: an available head wins unflagged; otherwise the first available
   * fallback k wins flagged as a fallback, every earlier one having been unavailable; and
   * resolution fails, naming the head, exactly when no candidate is available.
   */
  lemma ChainSearch(cfg: Catalog, plan: Plan)
    ensures ModelAvailable(cfg, plan.primary) ==> FirstIndex(Chain(plan), AvailableIn(cfg)) == Some(0)
    ensures forall k :: 0 <= k < |plan.fallbacks| && ModelAvailable(cfg, plan.fallbacks[k])
                        && !ModelAvailable(cfg, plan.primary)
                        && (forall j :: 0 <= j < k ==> !ModelAvailable(cfg, plan.fallbacks[j])) ==>
      FirstIndex(Chain(plan), AvailableIn(cfg)) == Some(k + 1)
    ensures FirstIndex(Chain(plan), AvailableIn(cfg)).None? <==>
      !ModelAvailable(cfg, plan.primary) && forall j :: 0 <= j < |plan.fallbacks| ==> !ModelAvailable(cfg, plan.fallbacks[j])
  {
    var chain := Chain(plan);
    assert chain[0] == plan.primary;
    assert forall j :: 1 <= j < |chain| ==> chain[j] == plan.fallbacks[j - 1];
    forall k | 0 <= k < |plan.fallbacks| && ModelAvailable(cfg, plan.fallbacks[k])
               && !ModelAvailable(cfg, plan.primary)
               && (forall j :: 0 <= j < k ==> !ModelAvailable(cfg, plan.fallbacks[j]))
      ensures FirstIndex(chain, AvailableIn(cfg)) == Some(k + 1)
    {
      assert AvailableIn(cfg)(chain[k + 1]);
    }
    if !ModelAvailable(cfg, plan.primary) && forall j :: 0 <= j < |plan.fallbacks| ==> !ModelAvailable(cfg, plan.fallbacks[j]) {
      assert forall j :: 0 <= j < |chain| ==> !AvailableIn(cfg)(chain[j]);
    }
  }

  /**
   * Resolution over a chain: an available head wins unflagged; otherwise the first available
   * fallback k wins flagged as a fallback, every earlier one having been unavailable; and
   * resolution fails, naming the head, exactly when no candidate is available.
   */
  lemma ResolveWalksChain(cfg: Catalog, plan: Plan, role: Option<string>)
    ensures ModelAvailable(cfg, plan.primary) ==>
      ResolveOver(cfg, plan, role) == Success(ResolvedModel(plan.primary.provider, plan.primary.model, false, role))
    ensures forall k :: 0 <= k < |plan.fallbacks| && ModelAvailable(cfg, plan.fallbacks[k])
                        && !ModelAvailable(cfg, plan.primary)
                        && (forall j :: 0 <= j < k ==> !ModelAvailable(cfg, plan.fallbacks[j])) ==>
      ResolveOver(cfg, plan, role)
        == Success(ResolvedModel(plan.fallbacks[k].provider, plan.fallbacks[k].model, true, role))
    ensures ResolveOver(cfg, plan, role).Failure? <==>
      !ModelAvailable(cfg, plan.primary) && forall j :: 0 <= j < |plan.fallbacks| ==> !ModelAvailable(cfg, plan.fallbacks[j])
    ensures ResolveOver(cfg, plan, role).Failure? ==> ResolveOver(cfg, plan, role).error == Unavailable(plan.primary)
  {
    ChainSearch(cfg, plan);
    forall k | 0 <= k < |plan.fallbacks| && ModelAvailable(cfg, plan.fallbacks[k])
               && !ModelAvailable(cfg, plan.primary)
               && (forall j :: 0 <= j < k ==> !ModelAvailable(cfg, plan.fallbacks[j]))
      ensures ResolveOver(cfg, plan, role)
        == Success(ResolvedModel(plan.fallbacks[k].provider, plan.fallbacks[k].model, true, role))
    {
      assert Chain(plan)[k + 1] == plan.fallbacks[k];
    }
  }

  /**
   * An explicit pair: when usable it short-circuits the chain; it still raises when its
   * fallback role has no valid plan; and a fallback it falls back to is one of that role's
   * declared fallbacks, so the role's primary is never tried for it unless listed as a fallback.
   */
  lemma ExplicitRequest(cfg: Catalog, role: Option<string>, provider: Option<string>, model: Option<string>)
    requires Present(provider) && Present(model)
    ensures PlanOf(cfg, FallbackRole(cfg, role)).Success? && ModelAvailable(cfg, Candidate(provider.value, model.value)) ==>
      Resolve(cfg, role, provider, model)
        == Success(ResolvedModel(provider.value, model.value, false, EffectiveRole(cfg, role)))
    ensures PlanOf(cfg, FallbackRole(cfg, role)).Failure? ==>
      Resolve(cfg, role, provider, model) == Failure(PlanOf(cfg, FallbackRole(cfg, role)).error)
    ensures Resolve(cfg, role, provider, model).Success? && Resolve(cfg, role, provider, model).value.fromFallback ==>
      var r := Resolve(cfg, role, provider, model).value;
      Candidate(r.provider, r.model) in PlanOf(cfg, FallbackRole(cfg, role)).value.fallbacks
  {
    var plan := IterCandidates(cfg, role, provider, model);
    if plan.Success? {
      var chain := Chain(plan.value);
      match FirstIndex(chain, AvailableIn(cfg))
      case Some(k) =>
        if k > 0 {
          assert chain[k] == plan.value.fallbacks[k - 1];
        }
      case None =>
    }
  }

  /**
   * Without an explicit pair: neither a role nor `defaults.role` raises `NoRoleSelected`, and
   * otherwise the selected role's plan is walked, its primary first.
   */
  lemma RoleRequest(cfg: Catalog, role: Option<string>, provider: Option<string>, model: Option<string>)
    requires !(Present(provider) && Present(model))
    ensures !Present(role) && !Present(cfg.defaults.role) ==> Resolve(cfg, role, provider, model) == Failure(NoRoleSelected)
    ensures Present(EffectiveRole(cfg, role)) && PlanOf(cfg, EffectiveRole(cfg, role).value).Failure? ==>
      Resolve(cfg, role, provider, model) == Failure(PlanOf(cfg, EffectiveRole(cfg, role).value).error)
    ensures Present(EffectiveRole(cfg, role)) && PlanOf(cfg, EffectiveRole(cfg, role).value).Success? ==>
      var plan := PlanOf(cfg, EffectiveRole(cfg, role).value).value;
      ModelAvailable(cfg, plan.primary) ==>
        Resolve(cfg, role, provider, model)
          == Success(ResolvedModel(plan.primary.provider, plan.primary.model, false, EffectiveRole(cfg, role)))
  {
  }

  /** A preflight finding. */
  datatype Issue =
    | MissingEnv(provider: string, variable: string)
    | RoleFailed(role: string, error: ResolutionError)

  /** `os.getenv(name)` is truthy. */
  predicate EnvSet(env: map<string, string>, name: string) {
    name in env && env[name] != ""
  }

  /** The issues one provider entry contributes: none when disabled, one per unset variable otherwise. */
  function ProviderIssues(name: string, entry: ProviderCfg, env: map<string, string>): seq<Issue> {
    if !entry.IsEnabled() then []
    else
      (if Present(entry.requiresKeyEnv) && !EnvSet(env, entry.requiresKeyEnv.value)
       then [MissingEnv(name, entry.requiresKeyEnv.value)] else [])
      + (if Present(entry.baseUrlEnv) && !EnvSet(env, entry.baseUrlEnv.value)
         then [MissingEnv(name, entry.baseUrlEnv.value)] else [])
  }

  /** The provider issues for the entries `names`, in that order. */
  function ProvidersIssues(cfg: Catalog, env: map<string, string>, names: seq<string>): seq<Issue>
    requires forall n :: n in names ==> n in cfg.providers.entries
  {
    if names == [] then []
    else
      var last := names[|names| - 1];
      ProvidersIssues(cfg, env, names[..|names| - 1]) + ProviderIssues(last, cfg.providers.entries[last], env)
  }

  /** One more provider entry appends its issues. */
  lemma ProvidersIssuesStep(cfg: Catalog, env: map<string, string>, names: seq<string>, i: nat)
    requires forall n :: n in names ==> n in cfg.providers.entries
    requires i < |names|
    ensures forall n :: n in names[..i] ==> n in cfg.providers.entries
    ensures ProvidersIssues(cfg, env, names[..i + 1])
      == ProvidersIssues(cfg, env, names[..i]) + ProviderIssues(names[i], cfg.providers.entries[names[i]], env)
  {
    assert names[..i + 1][..i] == names[..i];
  }

  /** The issue one declared role contributes: its resolution error, if resolving it raises. */
  function RoleIssue(cfg: Catalog, name: string): seq<Issue> {
    match Resolve(cfg, Some(name), None, None)
    case Failure(e) => [RoleFailed(name, e)]
    case Success(_) => []
  }

  /** The role issues for the roles `names`, in that order: one per role whose resolution raises. */
  function RolesIssues(cfg: Catalog, names: seq<string>): seq<Issue> {
    if names == [] then []
    else RolesIssues(cfg, names[..|names| - 1]) + RoleIssue(cfg, names[|names| - 1])
  }

  /** Everything `validate_environment` reports, providers first, each part in document order. */
  function Issues(cfg: Catalog, env: map<string, string>): seq<Issue>
    requires cfg.providers.Valid()
  {
    ProvidersIssues(cfg, env, cfg.providers.keys) + RolesIssues(cfg, cfg.roles.keys)
  }

  /** The body of the provider loop of `validate_environment`, for one entry. */
  method EntryIssues(name: string, entry: ProviderCfg, env: map<string, string>) returns (found: seq<Issue>)
    ensures found == ProviderIssues(name, entry, env)
  {
    found := [];
    if !entry.IsEnabled() {
      return;
    }
    var keyEnv := entry.requiresKeyEnv;
    if Present(keyEnv) && !EnvSet(env, keyEnv.value) {
      found := found + [MissingEnv(name, keyEnv.value)];
    }
    var baseUrlEnv := entry.baseUrlEnv;
    if Present(baseUrlEnv) && !EnvSet(env, baseUrlEnv.value) {
      found := found + [MissingEnv(name, baseUrlEnv.value)];
    }
  }

  /** The body of the role loop of `validate_environment`, for one role: resolve it, report what it raises. */
  method RoleIssueOf(cfg: Catalog, name: string) returns (found: seq<Issue>)
    ensures found == RoleIssue(cfg, name)
  {
    found := [];
    var resolved := ResolveRuntimeModel(cfg, Some(name), None, None);
    if resolved.Failure? {
      found := [RoleFailed(name, resolved.error)];
    }
  }

  /**
   * `validate_environment`, with the process environment as `env`: collects every issue and
   * never raises, since each role's resolution error is caught and reported.
   */
  method ValidateEnvironment(cfg: Catalog, env: map<string, string>) returns (issues: seq<Issue>)
    requires cfg.providers.Valid()
    ensures issues == Issues(cfg, env)
  {
    var providerIssues := CollectProviderIssues(cfg, env);
    var roleIssues := CollectRoleIssues(cfg);
    issues := providerIssues + roleIssues;
  }

  /** The provider loop of `validate_environment`: every entry, in document order. */
  method CollectProviderIssues(cfg: Catalog, env: map<string, string>) returns (issues: seq<Issue>)
    requires cfg.providers.Valid()
    ensures issues == ProvidersIssues(cfg, env, cfg.providers.keys)
  {
    issues := [];
    var names := cfg.providers.keys;
    for i := 0 to |names|
      invariant issues == ProvidersIssues(cfg, env, names[..i])
    {
      ProvidersIssuesStep(cfg, env, names, i);
      var found := EntryIssues(names[i], cfg.providers.entries[names[i]], env);
      issues := issues + found;
    }
    assert names[..|names|] == names;
  }

  /** The role loop of `validate_environment`: every declared role, in document order. */
  method CollectRoleIssues(cfg: Catalog) returns (issues: seq<Issue>)
    ensures issues == RolesIssues(cfg, cfg.roles.keys)
  {
    issues := [];
    var roles := cfg.roles.keys;
    for i := 0 to |roles|
      invariant issues == RolesIssues(cfg, roles[..i])
    {
      assert roles[..i + 1][..i] == roles[..i];
      var found := RoleIssueOf(cfg, roles[i]);
      issues := issues + found;
    }
    assert roles[..|roles|] == roles;
  }

  /** The variables a provider entry needs and lacks. */
  predicate MissesVariable(entry: ProviderCfg, env: map<string, string>, v: string) {
    && entry.IsEnabled()
    && (entry.requiresKeyEnv == Some(v) || entry.baseUrlEnv == Some(v))
    && v != ""
    && !EnvSet(env, v)
  }

  lemma ProviderIssuesMembers(name: string, entry: ProviderCfg, env: map<string, string>, p: string, v: string)
    ensures MissingEnv(p, v) in ProviderIssues(name, entry, env) <==> p == name && MissesVariable(entry, env, v)
  {
  }

  lemma {:induction false} ProvidersIssuesMembers(cfg: Catalog, env: map<string, string>, names: seq<string>, p: string, v: string)
    requires forall n :: n in names ==> n in cfg.providers.entries
    ensures MissingEnv(p, v) in ProvidersIssues(cfg, env, names) <==>
      p in names && MissesVariable(cfg.providers.entries[p], env, v)
  {
    if names != [] {
      var init, last := names[..|names| - 1], names[|names| - 1];
      ProvidersIssuesMembers(cfg, env, init, p, v);
      ProviderIssuesMembers(last, cfg.providers.entries[last], env, p, v);
      assert names == init + [last];
      assert p in names <==> p in init || p == last;
    }
  }

  lemma {:induction false} IssueKinds(cfg: Catalog, env: map<string, string>, providers: seq<string>, roles: seq<string>)
    requires forall n :: n in providers ==> n in cfg.providers.entries
    ensures forall x :: x in ProvidersIssues(cfg, env, providers) ==> x.MissingEnv?
    ensures forall x :: x in RolesIssues(cfg, roles) ==> x.RoleFailed?
  {
    if providers != [] {
      IssueKinds(cfg, env, providers[..|providers| - 1], roles);
    }
    if roles != [] {
      IssueKinds(cfg, env, providers, roles[..|roles| - 1]);
    }
  }

  lemma {:induction false} RolesIssuesMembers(cfg: Catalog, names: seq<string>, r: string, e: ResolutionError)
    ensures RoleFailed(r, e) in RolesIssues(cfg, names) <==>
      r in names && Resolve(cfg, Some(r), None, None) == Failure(e)
  {
    if names != [] {
      var init := names[..|names| - 1];
      RolesIssuesMembers(cfg, init, r, e);
      assert names == init + [names[|names| - 1]];
      assert r in names <==> r in init || r == names[|names| - 1];
    }
  }

  /**
   * What `validate_environment` reports: a missing-variable issue exactly for each variable an
   * enabled provider names and the environment lacks, and a role issue exactly for each declared
   * role whose resolution raises, carrying that error.
   */
  lemma IssuesExact(cfg: Catalog, env: map<string, string>, p: string, v: string, r: string, e: ResolutionError)
    requires cfg.providers.Valid()
    ensures MissingEnv(p, v) in Issues(cfg, env) <==>
      p in cfg.providers.entries && MissesVariable(cfg.providers.entries[p], env, v)
    ensures RoleFailed(r, e) in Issues(cfg, env) <==>
      r in cfg.roles.keys && Resolve(cfg, Some(r), None, None) == Failure(e)
  {
    ProvidersIssuesMembers(cfg, env, cfg.providers.keys, p, v);
    RolesIssuesMembers(cfg, cfg.roles.keys, r, e);
    IssueKinds(cfg, env, cfg.providers.keys, cfg.roles.keys);
  }

  lemma {:induction false} ProvidersIssuesEmpty(cfg: Catalog, env: map<string, string>, names: seq<string>)
    requires forall n :: n in names ==> n in cfg.providers.entries
    ensures ProvidersIssues(cfg, env, names) == [] <==>
      forall n, v :: n in names ==> !MissesVariable(cfg.providers.entries[n], env, v)
  {
    if names != [] {
      var init := names[..|names| - 1];
      var last := names[|names| - 1];
      ProvidersIssuesEmpty(cfg, env, init);
      assert names == init + [last];
      var entry := cfg.providers.entries[last];
      if ProviderIssues(last, entry, env) != [] {
        var v := if Present(entry.requiresKeyEnv) && !EnvSet(env, entry.requiresKeyEnv.value)
                 then entry.requiresKeyEnv.value else entry.baseUrlEnv.value;
        assert MissesVariable(entry, env, v);
      }
    }
  }

  lemma {:induction false} RolesIssuesEmpty(cfg: Catalog, names: seq<string>)
    ensures RolesIssues(cfg, names) == [] <==>
      forall r :: r in names ==> Resolve(cfg, Some(r), None, None).Success?
  {
    if names != [] {
      var init := names[..|names| - 1];
      RolesIssuesEmpty(cfg, init);
      assert names == init + [names[|names| - 1]];
    }
  }

  /**
   * The preflight verdict: no issue at all exactly when every enabled provider has the variables
   * it names and every declared role resolves.
   */
  lemma IssuesEmptyIff(cfg: Catalog, env: map<string, string>)
    requires cfg.providers.Valid()
    ensures Issues(cfg, env) == [] <==>
      && (forall n, v :: n in cfg.providers.entries ==> !MissesVariable(cfg.providers.entries[n], env, v))
      && (forall r :: r in cfg.roles.keys ==> Resolve(cfg, Some(r), None, None).Success?)
  {
    ProvidersIssuesEmpty(cfg, env, cfg.providers.keys);
    RolesIssuesEmpty(cfg, cfg.roles.keys);
  }
}

=== FILE: ollama_manager.dfy ===
/**
 * The start-up model check of the Ollama manager (src/ollama_manager.py): given what the
 * health check reported, which required models are missing and what `ensure_models` answers.
 */
module OllamaManager {

  /** The result of `health_check`: reachability, its message and the names of the installed models. */
  datatype HealthStatus = HealthStatus(ok: bool, message: string, models: seq<string>)

  /** The dictionary `ensure_models` returns. */
  datatype ModelsReport = ModelsReport(ok: bool, message: string, missingModels: seq<string>)

  const MissingMessage := "Required Ollama models are missing. Pull them before startup."
  const ReadyMessage := "All required Ollama models are available."

  /**
   * The required models that are not available, in the order of `required`: a model is listed
   * exactly when it is required and absent, and as many times as it is required.
   */
  function Missing(required: seq<string>, available: set<string>): (r: seq<string>)
    ensures |r| <= |required|
    ensures forall m :: m in r <==> m in required && m !in available
  {
    if required == [] then [] else Absent(required[0], available) + Missing(required[1..], available)
  }

  /** One model, listed when it is not available. */
  function Absent(m: string, available: set<string>): seq<string> {
    if m in available then [] else [m]
  }

  /** Duplicates are kept: an absent model occurs in the result as often as it is required. */
  lemma {:induction false} MissingCounts(required: seq<string>, available: set<string>, m: string)
    ensures multiset(Missing(required, available))[m] == if m in available then 0 else multiset(required)[m]
  {
    if required != [] {
      MissingCounts(required[1..], available, m);
      assert required == [required[0]] + required[1..];
    }
  }

  /** Order is kept: the missing models of a concatenation are those of each part, in turn. */
  lemma {:induction false} MissingAppend(a: seq<string>, b: seq<string>, available: set<string>)
    ensures Missing(a + b, available) == Missing(a, available) + Missing(b, available)
  {
    if a == [] {
      assert a + b == b;
    } else {
      calc {
        Missing(a + b, available);
        { assert (a + b)[0] == a[0] && (a + b)[1..] == a[1..] + b; }
        Absent(a[0], available) + Missing(a[1..] + b, available);
        { MissingAppend(a[1..], b, available); }
        Absent(a[0], available) + (Missing(a[1..], available) + Missing(b, available));
        (Absent(a[0], available) + Missing(a[1..], available)) + Missing(b, available);
      }
    }
  }

  /**
   * `ensure_models`, with the `health_check` result passed in: an unreachable server reports
   * every required model as missing with the health-check message; otherwise the report is ok
   * exactly when no required model is missing, and lists the missing ones in required order.
   */
  function EnsureModels(status: HealthStatus, required: seq<string>): (r: ModelsReport)
    ensures !status.ok ==> r == ModelsReport(false, status.message, required)
    ensures status.ok ==> (r.ok <==> forall m :: m in required ==> m in status.models)
    ensures status.ok ==> r.missingModels == Missing(required, set m | m in status.models)
    ensures status.ok && !r.ok ==> r.missingModels != [] && r.message == MissingMessage
    ensures r.ok ==> r == ModelsReport(true, ReadyMessage, [])
  {
    if !status.ok then ModelsReport(false, status.message, required)
    else
      var missing := Missing(required, set m | m in status.models);
      if missing != [] then
        assert missing[0] in missing;
        ModelsReport(false, MissingMessage, missing)
      else ModelsReport(true, ReadyMessage, [])
  }
}

=== FILE: preflight.dfy ===
/**
 * The start-up preflight (scripts/preflight.py): loading a `.env` file into the process
 * environment without overwriting, the four service checks decided from their HTTP outcome, and
 * the overall verdict. HTTP requests go through an oracle; the requests each check would send are
 * returned so that "no request is made" can be stated.
 */
module Preflight {
  import opened Wrappers
  import opened Text
  import opened Seqs

  /** One `KEY=VALUE` setting read from a `.env` line. */
  datatype EnvEntry = EnvEntry(key: string, value: string)

  predicate IsEqualsSign(c: char) {
    c == '='
  }

  /**
   * One line of `_load_env`: after stripping, a blank line, a `#` comment and a line without
   * `=` are skipped; otherwise the line is cut at its first `=` and both halves are stripped,
   * so the value may itself hold `=`.
   */
  function ParseEnvLine(raw: string): (r: Option<EnvEntry>)
    ensures r.None? <==> Strip(raw) == [] || Strip(raw)[0] == '#' || '=' !in Strip(raw)
  {
    var line := Strip(raw);
    if line == [] || line[0] == '#' || '=' !in line then None
    else
      match FirstIndex(line, IsEqualsSign)
      case None => None
      case Some(i) => Some(EnvEntry(Strip(line[..i]), Strip(line[i + 1..])))
  }

  /** A kept line is cut at its first `=`: the key is the stripped text before it, the value the stripped rest. */
  lemma ParseEnvLineCutsAtFirst(raw: string)
    requires ParseEnvLine(raw).Some?
    ensures exists i :: (0 <= i < |Strip(raw)| && Strip(raw)[i] == '=' && '=' !in Strip(raw)[..i]
      && ParseEnvLine(raw).value == EnvEntry(Strip(Strip(raw)[..i]), Strip(Strip(raw)[i + 1..])))
  {
    var line := Strip(raw);
    var i := FirstIndex(line, IsEqualsSign).value;
    assert ParseEnvLine(raw).value == EnvEntry(Strip(line[..i]), Strip(line[i + 1..]));
    assert '=' !in line[..i] by {
      forall k | 0 <= k < i ensures line[..i][k] != '=' {
        assert line[..i][k] == line[k];
        assert !IsEqualsSign(line[k]);
      }
    }
  }

  /** A `.env` line with no `=` in the key always parses into its key and value (which may hold `=`). */
  lemma ParseEnvLineFormatted(key: string, value: string)
    requires key != [] && !IsSpace(key[0]) && !IsSpace(key[|key| - 1]) && key[0] != '#'
    requires '=' !in key
    requires value == [] || (!IsSpace(value[0]) && !IsSpace(value[|value| - 1]))
    ensures ParseEnvLine(key + "=" + value) == Some(EnvEntry(key, value))
  {
    FormattedLineCut(key, value);
    FormattedLineSlices(key, value);
    StripKeepsTrimmed(key);
    StripKeepsTrimmed(value);
  }

  lemma FormattedLineCut(key: string, value: string)
    requires key != [] && !IsSpace(key[0]) && key[0] != '#'
    requires '=' !in key
    requires value == [] || !IsSpace(value[|value| - 1])
    ensures ParseEnvLine(key + "=" + value) ==
      Some(EnvEntry(Strip((key + "=" + value)[..|key|]), Strip((key + "=" + value)[|key| + 1..])))
  {
    var line := key + "=" + value;
    assert line[0] == key[0];
    FormattedLineIsTrimmed(key, value);
    FirstEqualsAfterKey(key, value);
    ParseTrimmedLine(line, |key|);
  }

  lemma FormattedLineSlices(key: string, value: string)
    ensures (key + "=" + value)[..|key|] == key && (key + "=" + value)[|key| + 1..] == value
  {
  }

  lemma FormattedLineIsTrimmed(key: string, value: string)
    requires key != [] && !IsSpace(key[0])
    requires value == [] || !IsSpace(value[|value| - 1])
    ensures Strip(key + "=" + value) == key + "=" + value
  {
    var line := key + "=" + value;
    assert line[0] == key[0];
    assert line[|line| - 1] == if value == [] then '=' else value[|value| - 1];
    StripKeepsTrimmed(line);
  }

  lemma ParseTrimmedLine(line: string, i: nat)
    requires Strip(line) == line && line != [] && line[0] != '#'
    requires FirstIndex(line, IsEqualsSign) == Some(i)
    ensures ParseEnvLine(line) == Some(EnvEntry(Strip(line[..i]), Strip(line[i + 1..])))
  {
    assert line[i] == '=';
  }

  lemma FirstEqualsAfterKey(key: string, value: string)
    requires '=' !in key
    ensures FirstIndex(key + "=" + value, IsEqualsSign) == Some(|key|)
  {
    var line := key + "=" + value;
    assert line[|key|] == '=';
    forall j | 0 <= j < |key| ensures !IsEqualsSign(line[j]) {
      assert line[j] == key[j];
    }
  }

  /** The parsed form of every line, in order. */
  function ParsedLines(lines: seq<string>): (r: seq<Option<EnvEntry>>)
    ensures |r| == |lines|
  {
    if lines == [] then [] else ParsedLines(lines[..|lines| - 1]) + [ParseEnvLine(lines[|lines| - 1])]
  }

  /** The environment after `setdefault` for every parsed entry, in order; skipped lines change nothing. */
  function ApplyEntries(env: map<string, string>, entries: seq<Option<EnvEntry>>): map<string, string> {
    if entries == [] then env
    else ApplyEntry(ApplyEntries(env, entries[..|entries| - 1]), entries[|entries| - 1])
  }

  /** `setdefault` for one parsed line; a skipped line changes nothing. */
  function ApplyEntry(env: map<string, string>, entry: Option<EnvEntry>): map<string, string> {
    match entry
    case None => env
    case Some(e) => if e.key in env then env else env[e.key := e.value]
  }

  /** Whether entry `i` sets `key`. */
  predicate SetsKey(entries: seq<Option<EnvEntry>>, i: int, key: string)
    requires 0 <= i < |entries|
  {
    entries[i].Some? && entries[i].value.key == key
  }

  /**
   * Loading never overwrites: every variable already set keeps its value, and the variables
   * added are exactly the keys of the parsed lines.
   */
  lemma {:induction false} ApplyEntriesKeeps(env: map<string, string>, entries: seq<Option<EnvEntry>>)
    ensures forall k :: k in env ==> k in ApplyEntries(env, entries) && ApplyEntries(env, entries)[k] == env[k]
    ensures forall k :: k in ApplyEntries(env, entries) <==>
      k in env || exists i :: 0 <= i < |entries| && SetsKey(entries, i, k)
  {
    if entries != [] {
      var init := entries[..|entries| - 1];
      ApplyEntriesKeeps(env, init);
      forall k ensures k in ApplyEntries(env, entries) <==>
        k in env || exists i :: 0 <= i < |entries| && SetsKey(entries, i, k)
      {
        if exists i :: 0 <= i < |init| && SetsKey(init, i, k) {
          var i :| 0 <= i < |init| && SetsKey(init, i, k);
          assert SetsKey(entries, i, k);
        }
        if exists i :: 0 <= i < |entries| && SetsKey(entries, i, k) {
          var i :| 0 <= i < |entries| && SetsKey(entries, i, k);
          if i < |init| {
            assert SetsKey(init, i, k);
          }
        }
        if k in ApplyEntries(env, entries) && k !in ApplyEntries(env, init) {
          assert SetsKey(entries, |entries| - 1, k);
        }
      }
    }
  }

  /** For a variable not already set, the first line that sets it wins. */
  lemma {:induction false} FirstEntryWins(env: map<string, string>, entries: seq<Option<EnvEntry>>, i: nat, key: string)
    requires i < |entries| && SetsKey(entries, i, key)
    requires key !in env
    requires forall j :: 0 <= j < i ==> !SetsKey(entries, j, key)
    ensures key in ApplyEntries(env, entries)
    ensures ApplyEntries(env, entries)[key] == entries[i].value.value
  {
    var init := entries[..|entries| - 1];
    ApplyEntriesKeeps(env, init);
    if i == |entries| - 1 {
      if key in ApplyEntries(env, init) {
        var j :| 0 <= j < |init| && SetsKey(init, j, key);
        assert SetsKey(entries, j, key);
      }
    } else {
      assert init[i] == entries[i];
      forall j | 0 <= j < i ensures !SetsKey(init, j, key) {
        assert init[j] == entries[j];
        assert SetsKey(init, j, key) == SetsKey(entries, j, key);
      }
      FirstEntryWins(env, init, i, key);
    }
  }

  /** What lies at `.env`: nothing, bytes that are not UTF-8, or a text. */
  datatype EnvFile = NoEnvFile | EnvNotUtf8 | EnvText(text: string)

  /** `os.environ`, the process environment `_load_env` fills. */
  class Environment {
    var vars: map<string, string>

    constructor (initial: map<string, string>)
      ensures vars == initial
    {
      vars := initial;
    }

    /** `os.environ.setdefault(key, value)`: sets an absent variable and leaves a present one alone. */
    method SetDefault(key: string, value: string)
      modifies this
      ensures vars == if key in old(vars) then old(vars) else old(vars)[key := value]
    {
      if key !in vars {
        vars := vars[key := value];
      }
    }

    /**
     * `_load_env`, with the `.env` file as `file`: each line of `splitlines()` is parsed and
     * applied with `setdefault`, in order. The parsing of one line (strip, skip, cut at the first
     * `=`) is `ParseEnvLine`. A file that is not UTF-8 makes `read_text` raise
     * `UnicodeDecodeError` before any line is applied; `decoded` is false exactly then.
     */
    method LoadEnv(file: EnvFile) returns (decoded: bool)
      modifies this
      ensures decoded <==> !file.EnvNotUtf8?
      ensures !file.EnvText? ==> vars == old(vars)
      ensures file.EnvText? ==> vars == ApplyEntries(old(vars), ParsedLines(SplitLines(file.text)))
    {
      if file.NoEnvFile? {
        return true;
      }
      if file.EnvNotUtf8? {
        return false;
      }
      decoded := true;
      var lines := SplitLines(file.text);
      for i := 0 to |lines|
        invariant vars == ApplyEntries(old(vars), ParsedLines(lines[..i]))
      {
        assert lines[..i + 1][..i] == lines[..i];
        ApplyLine(lines[i]);
      }
      assert lines[..|lines|] == lines;
    }

    /** One iteration of `_load_env`: parse the line and `setdefault` its entry, if any. */
    method ApplyLine(line: string)
      modifies this
      ensures vars == ApplyEntry(old(vars), ParseEnvLine(line))
    {
      var entry := ParseEnvLine(line);
      if entry.Some? {
        SetDefault(entry.value.key, entry.value.value);
      }
    }
  }

  /** An HTTP request as `_get` builds it. */
  datatype Request = Request(url: string, headers: seq<(string, string)>, timeout: int)

  /**
   * `urllib.parse.unwrap`, which `urllib.request.Request` applies to its URL: strip, drop one
   * pair of enclosing angle brackets, then drop a leading `URL:`.
   */
  function Unwrap(url: string): string {
    DropUrlPrefix(DropBrackets(Strip(url)))
  }

  /** The second step of `unwrap`: `<...>` loses its brackets and the white space inside them. */
  function DropBrackets(a: string): string {
    if |a| >= 2 && a[0] == '<' && a[|a| - 1] == '>' then Strip(a[1..|a| - 1]) else a
  }

  /** The last step of `unwrap`: a leading `URL:` goes, with the white space after it. */
  function DropUrlPrefix(b: string): string {
    if |b| >= 4 && b[..4] == "URL:" then Strip(b[4..]) else b
  }

  /** `urllib.parse._splittag`: the URL before its last `#`, or all of it when it has none. */
  function BeforeFragment(url: string): (r: string)
    ensures r <= url
  {
    if '#' !in url then url
    else if url[|url| - 1] == '#' then url[..|url| - 1]
    else BeforeFragment(url[..|url| - 1])
  }

  /** The length of the longest prefix without `:` or `/`. */
  function SchemeEnd(s: string): (i: nat)
    ensures i <= |s|
    ensures i < |s| ==> s[i] == ':' || s[i] == '/'
  {
    if s == [] || s[0] == ':' || s[0] == '/' then 0 else 1 + SchemeEnd(s[1..])
  }

  /** The scan for a scheme passes over no `:` and no `/`. */
  lemma {:induction false} SchemeEndScans(s: string)
    ensures forall k :: 0 <= k < SchemeEnd(s) ==> s[k] != ':' && s[k] != '/'
  {
    if s != [] && s[0] != ':' && s[0] != '/' {
      SchemeEndScans(s[1..]);
      assert forall k :: 1 <= k < SchemeEnd(s) ==> s[k] == s[1..][k - 1];
    }
  }

  /** `urllib.parse._splittype` finds a scheme: the pattern `([^/:]+):` matches at the start. */
  predicate HasScheme(s: string) {
    0 < SchemeEnd(s) < |s| && s[SchemeEnd(s)] == ':'
  }

  /** The scan for a scheme stops at the first `:` or `/`. */
  lemma {:induction false} SchemeEndAt(s: string, i: nat)
    requires i < |s| && (s[i] == ':' || s[i] == '/')
    requires forall k :: 0 <= k < i ==> s[k] != ':' && s[k] != '/'
    ensures SchemeEnd(s) == i
  {
    if i > 0 {
      assert forall k :: 0 <= k < i - 1 ==> s[1..][k] == s[k + 1];
      SchemeEndAt(s[1..], i - 1);
    }
  }

  /** A scheme is a non-empty prefix free of `/` and `:` that a `:` follows. */
  lemma HasSchemeIff(s: string)
    ensures HasScheme(s) <==>
      exists i :: 0 < i < |s| && s[i] == ':' && forall k :: 0 <= k < i ==> s[k] != ':' && s[k] != '/'
  {
    SchemeEndScans(s);
    if exists i :: 0 < i < |s| && s[i] == ':' && forall k :: 0 <= k < i ==> s[k] != ':' && s[k] != '/' {
      var i :| 0 < i < |s| && s[i] == ':' && forall k :: 0 <= k < i ==> s[k] != ':' && s[k] != '/';
      SchemeEndAt(s, i);
    }
  }

  /** On a prefix, the scheme scan stops where it stops on the whole text, or at the prefix's end. */
  lemma {:induction false} SchemeEndPrefix(r: string, s: string)
    requires r <= s
    ensures SchemeEnd(r) == if SchemeEnd(s) < |r| then SchemeEnd(s) else |r|
    decreases |r|
  {
    if r != [] && r[0] != ':' && r[0] != '/' {
      SchemeEndPrefix(r[1..], s[1..]);
    }
  }

  /** Text that has a scheme keeps it whatever follows. */
  lemma HasSchemeExtends(r: string, s: string)
    requires r <= s && HasScheme(r)
    ensures HasScheme(s)
  {
    SchemeEndPrefix(r, s);
  }

  /** Text without a scheme gives none to any of its prefixes. */
  lemma NoSchemeTruncates(r: string, s: string)
    requires r <= s && !HasScheme(s)
    ensures !HasScheme(r)
  {
    SchemeEndPrefix(r, s);
  }

  /** Cutting at the last `#` keeps every prefix free of `#`. */
  lemma {:induction false} BeforeFragmentKeeps(p: string, t: string)
    requires '#' !in p
    ensures p <= BeforeFragment(p + t)
    decreases |t|
  {
    var s := p + t;
    if '#' in s && s[|s| - 1] != '#' {
      assert s[..|s| - 1] == p + t[..|t| - 1];
      BeforeFragmentKeeps(p, t[..|t| - 1]);
    }
  }

  /** A URL that `unwrap` leaves alone and that begins with a scheme and `:` can be requested. */
  lemma SchemeUrlAccepted(scheme: string, rest: string)
    requires Unwrap(scheme + ":" + rest) == scheme + ":" + rest
    requires HasScheme(scheme + ":") && '#' !in scheme
    ensures RequestAccepts(scheme + ":" + rest)
  {
    BeforeFragmentKeeps(scheme + ":", rest);
    HasSchemeExtends(scheme + ":", BeforeFragment(scheme + ":" + rest));
  }

  /** A URL that `unwrap` leaves alone and that has no scheme cannot be requested. */
  lemma SchemelessUrlRefused(url: string)
    requires Unwrap(url) == url && !HasScheme(url)
    ensures !RequestAccepts(url)
  {
    NoSchemeTruncates(BeforeFragment(url), url);
  }

  /**
   * Whether `urllib.request.Request(url)` can be built. `Request` parses the URL as it is built
   * and raises `ValueError("unknown url type")` when, unwrapped and without its fragment, the URL
   * has no scheme.
   */
  predicate RequestAccepts(url: string) {
    HasScheme(BeforeFragment(Unwrap(url)))
  }

  /**
   * Of the decoded JSON payload, what the checks read: the length of `models` and the
   * `username`, each `None` when the key is absent.
   */
  datatype Payload = Payload(modelCount: Option<nat>, username: Option<string>)

  /** What `_get` returns: success, a status text (`HTTP 200`, `HTTP 401` or the error), the payload. */
  datatype HttpOutcome = HttpOutcome(ok: bool, message: string, payload: Payload)

  /** `_get` as an oracle. */
  type Fetch = Request -> HttpOutcome

  datatype CheckResult = CheckResult(ok: bool, message: string)

  /** `os.getenv(name, default)`. */
  function Getenv(env: map<string, string>, name: string, default: string): string {
    if name in env then env[name] else default
  }

  function AnthropicRequest(token: string): Request {
    Request("https://api.anthropic.com/v1/models", [("x-api-key", token), ("anthropic-version", "2023-06-01")], 12)
  }

  /**
   * `check_anthropic`, with the requests it sends: a blank key fails before any request is made;
   * otherwise one request to the models endpoint decides the check.
   */
  function CheckAnthropic(env: map<string, string>, get: Fetch): (r: (CheckResult, seq<Request>))
    ensures Strip(Getenv(env, "ANTHROPIC_API_KEY", "")) == [] <==> r.1 == []
    ensures r.1 == [] ==> r.0 == CheckResult(false, "Missing ANTHROPIC_API_KEY")
    ensures r.1 != [] ==> r.1 == [AnthropicRequest(Strip(Getenv(env, "ANTHROPIC_API_KEY", "")))]
    ensures r.1 != [] ==> (r.0.ok <==> get(r.1[0]).ok)
    ensures r.1 != [] && r.0.ok ==> r.0.message == "Anthropic API key accepted by /v1/models"
    ensures r.1 != [] && !r.0.ok ==>
      r.0.message == "Anthropic check failed (" + get(r.1[0]).message + "). Check key and account access."
  {
    var token := Strip(Getenv(env, "ANTHROPIC_API_KEY", ""));
    if token == [] then (CheckResult(false, "Missing ANTHROPIC_API_KEY"), [])
    else
      var request := AnthropicRequest(token);
      var outcome := get(request);
      if outcome.ok then (CheckResult(true, "Anthropic API key accepted by /v1/models"), [request])
      else (CheckResult(false, "Anthropic check failed (" + outcome.message + "). Check key and account access."), [request])
  }

  const GoogleUrl := "https://generativelanguage.googleapis.com/v1beta/models?key="

  /** `check_google`: a blank key fails before any request; otherwise the models endpoint decides. */
  function CheckGoogle(env: map<string, string>, get: Fetch): (r: (CheckResult, seq<Request>))
    ensures Strip(Getenv(env, "GOOGLE_API_KEY", "")) == [] <==> r.1 == []
    ensures r.1 == [] ==> r.0 == CheckResult(false, "Missing GOOGLE_API_KEY")
    ensures r.1 != [] ==> r.1 == [Request(GoogleUrl + Strip(Getenv(env, "GOOGLE_API_KEY", "")), [], 12)]
    ensures r.1 != [] ==> (r.0.ok <==> get(r.1[0]).ok)
    ensures r.1 != [] && r.0.ok ==> r.0.message == "Google API key accepted by models endpoint"
    ensures r.1 != [] && !r.0.ok ==> r.0.message == "Google check failed (" + get(r.1[0]).message + ")"
  {
    var key := Strip(Getenv(env, "GOOGLE_API_KEY", ""));
    if key == [] then (CheckResult(false, "Missing GOOGLE_API_KEY"), [])
    else
      var request := Request(GoogleUrl + key, [], 12);
      var outcome := get(request);
      if outcome.ok then (CheckResult(true, "Google API key accepted by models endpoint"), [request])
      else (CheckResult(false, "Google check failed (" + outcome.message + ")"), [request])
  }

  /** The Ollama base URL without trailing slashes. */
  function OllamaBase(env: map<string, string>): string {
    RStripChar(Getenv(env, "OLLAMA_BASE_URL", "http://127.0.0.1:11434"), '/')
  }

  /** The URL `check_ollama` asks for. */
  function OllamaUrl(env: map<string, string>): string {
    OllamaBase(env) + "/api/tags"
  }

  /**
   * `check_ollama`: one request to `/api/tags`; the check passes exactly when the server answers
   * and lists at least one model, and it says how many. `None` when the URL has no scheme, so
   * that `_get` raises `ValueError` while building the request, before its `try`, and nothing
   * is sent.
   */
  function CheckOllama(env: map<string, string>, get: Fetch): (r: Option<(CheckResult, seq<Request>)>)
    ensures r.None? <==> !RequestAccepts(OllamaUrl(env))
    ensures r.Some? ==> r.value.1 == [Request(OllamaUrl(env), [], 6)]
    ensures r.Some? ==> (r.value.0.ok <==> get(r.value.1[0]).ok && get(r.value.1[0]).payload.modelCount.GetOr(0) > 0)
    ensures r.Some? && !get(r.value.1[0]).ok ==>
      r.value.0.message == "Ollama unreachable at " + OllamaBase(env) + " (" + get(r.value.1[0]).message + ")"
    ensures r.Some? && get(r.value.1[0]).ok && !r.value.0.ok ==>
      r.value.0.message == "Ollama reachable, but no models are pulled yet"
    ensures r.Some? && r.value.0.ok ==>
      r.value.0.message == "Ollama reachable with " + IntToString(get(r.value.1[0]).payload.modelCount.value) + " model(s)"
  {
    var base := OllamaBase(env);
    var url := OllamaUrl(env);
    if !RequestAccepts(url) then None
    else
      var request := Request(url, [], 6);
      var outcome := get(request);
      if !outcome.ok then Some((CheckResult(false, "Ollama unreachable at " + base + " (" + outcome.message + ")"), [request]))
      else
        var models := outcome.payload.modelCount.GetOr(0);
        if models == 0 then Some((CheckResult(false, "Ollama reachable, but no models are pulled yet"), [request]))
        else Some((CheckResult(true, "Ollama reachable with " + IntToString(models) + " model(s)"), [request]))
  }

  /** `unwrap` leaves a URL alone that neither begins nor ends with white space or a bracket and does not start with `U`. */
  lemma UnwrapPlain(url: string)
    requires url != [] && !IsSpace(url[0]) && !IsSpace(url[|url| - 1])
    requires url[0] != '<' && url[0] != 'U'
    ensures Unwrap(url) == url
  {
    StripKeepsTrimmed(url);
    if |url| >= 4 {
      assert url[..4][0] != "URL:"[0];
    }
  }

  /** `unwrap` introduces no character that was not there. */
  lemma UnwrapKeepsOut(url: string, c: char)
    requires c !in url
    ensures c !in Unwrap(url)
  {
    var a := Strip(url);
    StripKeepsOut(url, c);
    if |a| >= 2 && a[0] == '<' && a[|a| - 1] == '>' {
      assert c !in a[1..|a| - 1];
      StripKeepsOut(a[1..|a| - 1], c);
    }
    var b := DropBrackets(a);
    if |b| >= 4 && b[..4] == "URL:" {
      assert c !in b[4..];
      StripKeepsOut(b[4..], c);
    }
  }

  /**
   * An `OLLAMA_BASE_URL` without any `:`, such as an empty one or a bare host name like
   * `localhost`, leaves a URL with no scheme: the Ollama check raises.
   */
  lemma ColonlessBaseRaises(env: map<string, string>, get: Fetch)
    requires "OLLAMA_BASE_URL" in env && ':' !in env["OLLAMA_BASE_URL"]
    ensures CheckOllama(env, get).None?
  {
    var base := OllamaBase(env);
    assert ':' !in base by {
      assert forall k :: 0 <= k < |base| ==> base[k] == env["OLLAMA_BASE_URL"][k];
    }
    var url := OllamaUrl(env);
    assert ':' !in "/api/tags";
    assert ':' !in url;
    UnwrapKeepsOut(url, ':');
    var r := BeforeFragment(Unwrap(url));
    assert ':' !in r;
    assert SchemeEnd(r) < |r| ==> r[SchemeEnd(r)] != ':';
  }

  /**
   * A base URL that starts with a scheme in lower-case letters (`http`, `https`, ...) and a `:`
   * is accepted: the Ollama check sends its request.
   */
  lemma SchemeBaseAccepted(env: map<string, string>, get: Fetch, scheme: string, rest: string)
    requires OllamaBase(env) == scheme + ":" + rest
    requires scheme != [] && 'a' <= scheme[0] <= 'z'
    requires forall k :: 0 <= k < |scheme| ==> scheme[k] != ':' && scheme[k] != '/' && scheme[k] != '#'
    ensures CheckOllama(env, get).Some?
  {
    var tail := rest + "/api/tags";
    assert OllamaUrl(env) == scheme + ":" + tail;
    assert tail[|tail| - 1] == 's';
    LetterSchemeAccepted(scheme, tail);
  }

  /** A URL that starts with a scheme in lower-case letters and ends in no white space is accepted. */
  lemma LetterSchemeAccepted(scheme: string, tail: string)
    requires scheme != [] && 'a' <= scheme[0] <= 'z'
    requires forall k :: 0 <= k < |scheme| ==> scheme[k] != ':' && scheme[k] != '/' && scheme[k] != '#'
    requires tail != [] && !IsSpace(tail[|tail| - 1])
    ensures RequestAccepts(scheme + ":" + tail)
  {
    var url := scheme + ":" + tail;
    assert url[0] == scheme[0] && url[|url| - 1] == tail[|tail| - 1];
    UnwrapPlain(url);
    SchemeEndAt(scheme + ":", |scheme|);
    SchemeUrlAccepted(scheme, tail);
  }

  /** The default base URL has the scheme `http`. */
  lemma DefaultOllamaBaseAccepted(env: map<string, string>, get: Fetch)
    requires "OLLAMA_BASE_URL" !in env
    ensures CheckOllama(env, get).Some?
  {
    assert OllamaBase(env) == "http" + ":" + "//127.0.0.1:11434";
    SchemeBaseAccepted(env, get, "http", "//127.0.0.1:11434");
  }

  function DiscordRequest(token: string): Request {
    Request("https://discord.com/api/v10/users/@me", [("Authorization", "Bot " + token)], 10)
  }

  /** `check_discord_bot`: a blank token fails before any request; otherwise `/users/@me` decides. */
  function CheckDiscordBot(env: map<string, string>, get: Fetch): (r: (CheckResult, seq<Request>))
    ensures Strip(Getenv(env, "DISCORD_BOT_TOKEN", "")) == [] <==> r.1 == []
    ensures r.1 == [] ==> r.0 == CheckResult(false, "Missing DISCORD_BOT_TOKEN")
    ensures r.1 != [] ==> r.1 == [DiscordRequest(Strip(Getenv(env, "DISCORD_BOT_TOKEN", "")))]
    ensures r.1 != [] ==> (r.0.ok <==> get(r.1[0]).ok)
    ensures r.1 != [] && r.0.ok ==>
      r.0.message == "Discord bot token valid for @" + get(r.1[0]).payload.username.GetOr("unknown")
    ensures r.1 != [] && !r.0.ok ==> r.0.message == "Discord bot check failed (" + get(r.1[0]).message + ")"
  {
    var token := Strip(Getenv(env, "DISCORD_BOT_TOKEN", ""));
    if token == [] then (CheckResult(false, "Missing DISCORD_BOT_TOKEN"), [])
    else
      var request := DiscordRequest(token);
      var outcome := get(request);
      if outcome.ok then
        (CheckResult(true, "Discord bot token valid for @" + outcome.payload.username.GetOr("unknown")), [request])
      else (CheckResult(false, "Discord bot check failed (" + outcome.message + ")"), [request])
  }

  /** The named checks `main` runs, in order, given their results. */
  function ChecksOf(anthropic: CheckResult, google: CheckResult, ollama: CheckResult, discord: CheckResult)
    : seq<(string, CheckResult)>
  {
    [("Anthropic", anthropic), ("Google Gemini", google), ("Ollama", ollama), ("Discord Bot", discord)]
  }

  /** The named checks `main` runs against an environment whose Ollama URL has a scheme. */
  function Checks(env: map<string, string>, get: Fetch): seq<(string, CheckResult)>
    requires CheckOllama(env, get).Some?
  {
    ChecksOf(CheckAnthropic(env, get).0, CheckGoogle(env, get).0, CheckOllama(env, get).value.0, CheckDiscordBot(env, get).0)
  }

  /** Every request the checks send, in order, when the Ollama URL has a scheme. */
  function CheckRequests(env: map<string, string>, get: Fetch): seq<Request>
    requires CheckOllama(env, get).Some?
  {
    CheckAnthropic(env, get).1 + CheckGoogle(env, get).1 + CheckOllama(env, get).value.1 + CheckDiscordBot(env, get).1
  }

  const Header := "OpenClaw Mac Mini Preflight Results"
  const Rule := "----------------------------------"
  const FailedFooter := "\nPreflight failed. Fix the failed checks above before starting OpenClaw."
  const PassedFooter := "\nPreflight passed. System is ready for startup."

  /** The line printed for one check: `[OK] name: message` or `[FAIL] name: message`. */
  function StatusLine(check: (string, CheckResult)): string {
    "[" + (if check.1.ok then "OK" else "FAIL") + "] " + check.0 + ": " + check.1.message
  }

  /** One status line per check, in order. */
  function StatusLines(checks: seq<(string, CheckResult)>): (r: seq<string>)
    ensures |r| == |checks|
    ensures forall i :: 0 <= i < |checks| ==> r[i] == StatusLine(checks[i])
  {
    if checks == [] then [] else StatusLines(checks[..|checks| - 1]) + [StatusLine(checks[|checks| - 1])]
  }

  predicate AnyFailed(checks: seq<(string, CheckResult)>) {
    exists i :: 0 <= i < |checks| && !checks[i].1.ok
  }

  /**
   * The reporting loop of `main`: prints the header, one line per check and the footer, and
   * returns 1 exactly when some check failed, 0 when all passed.
   */
  method Report(checks: seq<(string, CheckResult)>) returns (code: int, printed: seq<string>)
    ensures code == 0 || code == 1
    ensures code == 1 <==> AnyFailed(checks)
    ensures printed == [Header, Rule] + StatusLines(checks) + [if code == 1 then FailedFooter else PassedFooter]
  {
    var hasFail := false;
    printed := [Header, Rule];
    for i := 0 to |checks|
      invariant hasFail <==> exists j :: 0 <= j < i && !checks[j].1.ok
      invariant printed == [Header, Rule] + StatusLines(checks[..i])
    {
      assert checks[..i + 1][..i] == checks[..i];
      printed := printed + [StatusLine(checks[i])];
      if !checks[i].1.ok {
        hasFail := true;
      }
    }
    assert checks[..|checks|] == checks;
    if hasFail {
      printed := printed + [FailedFooter];
      return 1, printed;
    }
    printed := printed + [PassedFooter];
    return 0, printed;
  }

  /**
   * How `main` ends: it returns an exit code, or the `UnicodeDecodeError` of `_load_env` or the
   * `ValueError` of the Ollama check escapes it.
   */
  datatype MainOutcome = Returned(code: int) | DecodeErrorRaised | UrlErrorRaised

  /**
   * `main`: loads `.env` into the environment, runs the four checks against it through the
   * oracle `get`, and reports. The exit code is 1 exactly when some check failed. A `.env` that
   * is not UTF-8 ends `main` with the decoding error before any check, request or line. An
   * Ollama URL without a scheme ends it with `ValueError` while the list of checks is still
   * being built: the Anthropic and Google requests have gone out, nothing is printed, and the
   * Discord check never runs.
   */
  method RunPreflight(env: Environment, envFile: EnvFile, get: Fetch)
    returns (outcome: MainOutcome, printed: seq<string>, requests: seq<Request>)
    modifies env
    ensures envFile.EnvNotUtf8? ==>
      outcome == DecodeErrorRaised && printed == [] && requests == [] && env.vars == old(env.vars)
    ensures envFile.NoEnvFile? ==> env.vars == old(env.vars)
    ensures envFile.EnvText? ==> env.vars == ApplyEntries(old(env.vars), ParsedLines(SplitLines(envFile.text)))
    ensures !envFile.EnvNotUtf8? && CheckOllama(env.vars, get).None? ==>
      && outcome == UrlErrorRaised
      && printed == []
      && requests == CheckAnthropic(env.vars, get).1 + CheckGoogle(env.vars, get).1
    ensures !envFile.EnvNotUtf8? && CheckOllama(env.vars, get).Some? ==>
      && outcome.Returned?
      && requests == CheckRequests(env.vars, get)
      && (outcome.code == 1 <==> AnyFailed(Checks(env.vars, get)))
      && (outcome.code == 0 || outcome.code == 1)
      && printed == [Header, Rule] + StatusLines(Checks(env.vars, get)) + [if outcome.code == 1 then FailedFooter else PassedFooter]
  {
    var decoded := env.LoadEnv(envFile);
    if !decoded {
      return DecodeErrorRaised, [], [];
    }
    var anthropic := CheckAnthropic(env.vars, get);
    var google := CheckGoogle(env.vars, get);
    var ollama := CheckOllama(env.vars, get);
    if ollama.None? {
      return UrlErrorRaised, [], anthropic.1 + google.1;
    }
    var discord := CheckDiscordBot(env.vars, get);
    requests := anthropic.1 + google.1 + ollama.value.1 + discord.1;
    var code;
    code, printed := Report(ChecksOf(anthropic.0, google.0, ollama.value.0, discord.0));
    outcome := Returned(code);
  }

  /** The verdict: the preflight fails exactly when one of the four checks fails. */
  lemma {:induction false} VerdictFails(anthropic: CheckResult, google: CheckResult, ollama: CheckResult, discord: CheckResult)
    ensures AnyFailed(ChecksOf(anthropic, google, ollama, discord)) <==>
      !anthropic.ok || !google.ok || !ollama.ok || !discord.ok
  {
    var checks := ChecksOf(anthropic, google, ollama, discord);
    if !anthropic.ok { assert !checks[0].1.ok; }
    if !google.ok { assert !checks[1].1.ok; }
    if !ollama.ok { assert !checks[2].1.ok; }
    if !discord.ok { assert !checks[3].1.ok; }
  }

  /**
   * A missing Anthropic key fails the preflight whatever the other checks say, and no request
   * is sent to Anthropic.
   */
  lemma MissingAnthropicKeyFails(env: map<string, string>, get: Fetch, google: CheckResult, ollama: CheckResult, discord: CheckResult)
    requires Strip(Getenv(env, "ANTHROPIC_API_KEY", "")) == []
    ensures AnyFailed(ChecksOf(CheckAnthropic(env, get).0, google, ollama, discord))
    ensures CheckAnthropic(env, get).1 == []
  {
    VerdictFails(CheckAnthropic(env, get).0, google, ollama, discord);
  }

  /** An Ollama server that answers without any model fails the preflight whatever the other checks say. */
  lemma OllamaWithoutModelsFails(env: map<string, string>, get: Fetch, anthropic: CheckResult, google: CheckResult, discord: CheckResult)
    requires get(Request(OllamaUrl(env), [], 6)).payload.modelCount.GetOr(0) == 0
    ensures CheckOllama(env, get).Some? ==> AnyFailed(ChecksOf(anthropic, google, CheckOllama(env, get).value.0, discord))
  {
    if CheckOllama(env, get).Some? {
      VerdictFails(anthropic, google, CheckOllama(env, get).value.0, discord);
    }
  }
}

=== FILE: seqs.dfy ===
/** Searching a sequence in order: the shape shared by every fallback walk in the core. */
module Seqs {
  import opened Wrappers

  /** The index of the first element that satisfies `p`, or `None` when no element does. */
  function FirstIndex<T>(s: seq<T>, p: T -> bool): (r: Option<nat>)
    ensures r.Some? ==> r.value < |s| && p(s[r.value])
    ensures r.Some? ==> forall j :: 0 <= j < r.value ==> !p(s[j])
    ensures r.None? ==> forall j :: 0 <= j < |s| ==> !p(s[j])
  {
    if s == [] then None
    else if p(s[0]) then Some(0)
    else
      match FirstIndex(s[1..], p)
      case None => None
      case Some(k) => Some(k + 1)
  }

  /** The values `f` defines on the elements of `s`. */
  function Image<T, U>(s: seq<T>, f: T -> Option<U>): set<U> {
    if s == [] then {}
    else
      var last := f(s[|s| - 1]);
      Image(s[..|s| - 1], f) + (if last.Some? then {last.value} else {})
  }

  /** One more element adds its value, if `f` defines one. */
  lemma ImageStep<T, U>(s: seq<T>, i: nat, f: T -> Option<U>)
    requires i < |s|
    ensures Image(s[..i + 1], f) == Image(s[..i], f) + (if f(s[i]).Some? then {f(s[i]).value} else {})
  {
    assert s[..i + 1][..i] == s[..i];
  }

  lemma {:induction false} ImageMembers<T, U>(s: seq<T>, f: T -> Option<U>, u: U)
    ensures u in Image(s, f) <==> exists i :: 0 <= i < |s| && f(s[i]) == Some(u)
  {
    if s != [] {
      var init, last := s[..|s| - 1], s[|s| - 1];
      ImageMembers(init, f, u);
      if u in Image(init, f) {
        var i :| 0 <= i < |init| && f(init[i]) == Some(u);
        assert s[i] == init[i];
      }
      if exists i :: 0 <= i < |s| && f(s[i]) == Some(u) {
        var i :| 0 <= i < |s| && f(s[i]) == Some(u);
        if i < |init| {
          assert init[i] == s[i];
        }
      }
    }
  }

  /** When `f` decodes each `ts[i]` to `xs[i]`, the image of `ts` holds exactly the elements of `xs`. */
  lemma ImageOfDecoded<T, U>(ts: seq<T>, xs: seq<U>, f: T -> Option<U>)
    requires |ts| == |xs|
    requires forall i :: 0 <= i < |xs| ==> f(ts[i]) == Some(xs[i])
    ensures forall u :: u in Image(ts, f) <==> u in xs
  {
    forall u ensures u in Image(ts, f) <==> u in xs {
      ImageMembers(ts, f, u);
      if u in xs {
        var i :| 0 <= i < |xs| && xs[i] == u;
        assert f(ts[i]) == Some(u);
      }
    }
  }
}

=== FILE: text.dfy ===
/**
 * The Python string built-ins the core relies on, written out: `str.strip()`, `str.rstrip(c)`,
 * `str.split(c)`, `sep.join(...)`, `str.splitlines()`, `str.replace(p, "")`, `str(int)` and
 * `int(str)`. Python strings are modelled as sequences of Unicode scalar values; lone surrogates
 * are not represented.
 */
module Text {
  import opened Wrappers

  /** The characters for which Python's `str.isspace()` holds: the ones `str.strip()` removes. */
  predicate IsSpace(c: char) {
    c == ' ' || ('\t' <= c <= '\r') || ('\U{1c}' <= c <= '\U{1f}') || c == '\U{85}' || c == '\U{a0}'
    || c == '\U{1680}' || ('\U{2000}' <= c <= '\U{200a}') || c == '\U{2028}' || c == '\U{2029}'
    || c == '\U{202f}' || c == '\U{205f}' || c == '\U{3000}'
  }

  /** `s.lstrip()`: the longest suffix of `s` that does not start with white space. */
  function TrimStart(s: string): (r: string)
    ensures |r| <= |s| && r == s[|s| - |r|..]
    ensures r == [] || !IsSpace(r[0])
  {
    if |s| > 0 && IsSpace(s[0]) then TrimStart(s[1..]) else s
  }

  /** What `lstrip()` removes is white space. */
  lemma {:induction false} TrimStartRemovesSpace(s: string)
    ensures forall k :: 0 <= k < |s| - |TrimStart(s)| ==> IsSpace(s[k])
  {
    if |s| > 0 && IsSpace(s[0]) {
      TrimStartRemovesSpace(s[1..]);
      assert forall k :: 1 <= k < |s| ==> s[k] == s[1..][k - 1];
    }
  }

  /** `s.rstrip()`: the longest prefix of `s` that does not end with white space. */
  function TrimEnd(s: string): (r: string)
    ensures |r| <= |s| && r == s[..|r|]
    ensures r == [] || !IsSpace(r[|r| - 1])
  {
    if |s| > 0 && IsSpace(s[|s| - 1]) then TrimEnd(s[..|s| - 1]) else s
  }

  /** What `rstrip()` removes is white space. */
  lemma {:induction false} TrimEndRemovesSpace(s: string)
    ensures forall k :: |TrimEnd(s)| <= k < |s| ==> IsSpace(s[k])
  {
    if |s| > 0 && IsSpace(s[|s| - 1]) {
      TrimEndRemovesSpace(s[..|s| - 1]);
    }
  }

  /** `s.strip()`: the result neither begins nor ends with white space. */
  function Strip(s: string): (r: string)
    ensures |r| <= |s|
    ensures r == [] || (!IsSpace(r[0]) && !IsSpace(r[|r| - 1]))
  {
    TrimEnd(TrimStart(s))
  }

  /**
   * What `strip()` removes is white space: the result is the part of `s` between a run of
   * leading and a run of trailing white space.
   */
  lemma StripRemovesOnlySpace(s: string)
    ensures exists i :: 0 <= i <= |s| - |Strip(s)| && Strip(s) <= s[i..]
                        && (forall k :: 0 <= k < i ==> IsSpace(s[k]))
                        && (forall k :: i + |Strip(s)| <= k < |s| ==> IsSpace(s[k]))
  {
    var t := TrimStart(s);
    var i := |s| - |t|;
    var r := TrimEnd(t);
    assert t == s[i..] && r == t[..|r|];
    TrimStartRemovesSpace(s);
    TrimEndRemovesSpace(t);
    assert forall k :: i + |r| <= k < |s| ==> s[k] == t[k - i];
  }

  /** `strip()` introduces no character that was not there. */
  lemma StripKeepsOut(s: string, c: char)
    requires c !in s
    ensures c !in Strip(s)
  {
    var t := TrimStart(s);
    assert c !in t;
    assert c !in TrimEnd(t);
  }

  /** Text that neither begins nor ends with white space is left alone by `strip()`. */
  lemma StripKeepsTrimmed(s: string)
    requires s == [] || (!IsSpace(s[0]) && !IsSpace(s[|s| - 1]))
    ensures Strip(s) == s
  {
  }

  /** Leading white space does not change what `strip()` returns. */
  lemma StripSkipsSpace(c: char, s: string)
    requires IsSpace(c)
    ensures Strip([c] + s) == Strip(s)
  {
    assert ([c] + s)[1..] == s;
  }

  /** Every character of `s` is white space. */
  predicate AllSpace(s: string) {
    forall k :: 0 <= k < |s| ==> IsSpace(s[k])
  }

  /** `strip()` leaves nothing exactly when the text is all white space. */
  lemma StripEmptyIff(s: string)
    ensures Strip(s) == [] <==> AllSpace(s)
  {
    var t := TrimStart(s);
    TrimStartRemovesSpace(s);
    TrimEndRemovesSpace(t);
    assert AllSpace(s) ==> t == [] by {
      assert t == s[|s| - |t|..];
    }
  }

  /** `s.rstrip(c)` for one character `c`: drop every trailing `c`. */
  function RStripChar(s: string, c: char): (r: string)
    ensures |r| <= |s| && r == s[..|r|]
    ensures forall k :: |r| <= k < |s| ==> s[k] == c
    ensures r == [] || r[|r| - 1] != c
  {
    if |s| > 0 && s[|s| - 1] == c then RStripChar(s[..|s| - 1], c) else s
  }

  /** `s.split(sep)` for a one-character separator: never empty. */
  function Split(s: string, sep: char): (r: seq<string>)
    ensures |r| >= 1
  {
    if s == [] then [[]]
    else
      var rest := Split(s[1..], sep);
      if s[0] == sep then [[]] + rest
      else [[s[0]] + rest[0]] + rest[1..]
  }

  /** `sep.join(pieces)`. */
  function Join(pieces: seq<string>, sep: string): string
  {
    if |pieces| == 0 then []
    else if |pieces| == 1 then pieces[0]
    else pieces[0] + sep + Join(pieces[1..], sep)
  }

  /** Joining the pieces of a split with the separator gives back the original text. */
  lemma {:induction false} JoinSplit(s: string, sep: char)
    ensures Join(Split(s, sep), [sep]) == s
  {
    if s != [] {
      JoinSplit(s[1..], sep);
      var rest := Split(s[1..], sep);
      if s[0] == sep {
        assert ([[]] + rest)[1..] == rest;
      } else if |rest| > 1 {
        var r := [[s[0]] + rest[0]] + rest[1..];
        assert r[1..] == rest[1..];
        assert Join(r, [sep]) == [s[0]] + (rest[0] + [sep] + Join(rest[1..], [sep]));
      }
    }
  }

  /** No piece of a split holds the separator. */
  lemma {:induction false} SplitPiecesFree(s: string, sep: char)
    ensures forall i :: 0 <= i < |Split(s, sep)| ==> sep !in Split(s, sep)[i]
  {
    if s != [] {
      SplitPiecesFree(s[1..], sep);
    }
  }

  lemma {:induction false} SplitNoSep(a: string, sep: char)
    requires sep !in a
    ensures Split(a, sep) == [a]
  {
    if a != [] {
      SplitNoSep(a[1..], sep);
      assert [a[0]] + a[1..] == a;
    }
  }

  lemma {:induction false} SplitPrefix(a: string, rest: string, sep: char)
    requires sep !in a
    ensures Split(a + [sep] + rest, sep) == [a] + Split(rest, sep)
  {
    if a == [] {
      assert (a + [sep] + rest)[1..] == rest;
    } else {
      SplitPrefix(a[1..], rest, sep);
      assert (a + [sep] + rest)[1..] == a[1..] + [sep] + rest;
      assert [a[0]] + a[1..] == a;
    }
  }

  /** Pieces free of the separator, joined with it, split back into the same pieces. */
  lemma {:induction false} SplitJoin(pieces: seq<string>, sep: char)
    requires pieces != []
    requires forall i :: 0 <= i < |pieces| ==> sep !in pieces[i]
    ensures Split(Join(pieces, [sep]), sep) == pieces
  {
    if |pieces| == 1 {
      SplitNoSep(pieces[0], sep);
    } else {
      SplitJoin(pieces[1..], sep);
      SplitPrefix(pieces[0], Join(pieces[1..], [sep]), sep);
      assert [pieces[0]] + pieces[1..] == pieces;
    }
  }

  /** Joining one more piece appends the separator and that piece. */
  lemma {:induction false} JoinAppend(pieces: seq<string>, x: string, sep: string)
    ensures Join(pieces + [x], sep) == if pieces == [] then x else Join(pieces, sep) + sep + x
  {
    if |pieces| == 1 {
      assert (pieces + [x])[1..] == [x];
    } else if |pieces| > 1 {
      JoinAppend(pieces[1..], x, sep);
      assert (pieces + [x])[1..] == pieces[1..] + [x];
    }
  }

  /** A join begins with its first piece and ends with its last one. */
  lemma JoinEnds(pieces: seq<string>, sep: string)
    requires pieces != []
    ensures pieces[0] <= Join(pieces, sep)
    ensures var j, last := Join(pieces, sep), pieces[|pieces| - 1];
      |last| <= |j| && j[|j| - |last|..] == last
  {
    var init, last := pieces[..|pieces| - 1], pieces[|pieces| - 1];
    JoinAppend(init, last, sep);
    assert init + [last] == pieces;
  }

  /** A join with a white-space separator is all white space exactly when every piece is. */
  lemma {:induction false} JoinAllSpace(pieces: seq<string>, sep: string)
    requires AllSpace(sep)
    ensures AllSpace(Join(pieces, sep)) <==> forall i :: 0 <= i < |pieces| ==> AllSpace(pieces[i])
  {
    if |pieces| > 1 {
      var a, rest := pieces[0], Join(pieces[1..], sep);
      JoinAllSpace(pieces[1..], sep);
      var j := a + sep + rest;
      assert forall k :: 0 <= k < |a| ==> j[k] == a[k];
      assert forall k :: 0 <= k < |rest| ==> j[|a| + |sep| + k] == rest[k];
      assert forall i :: 1 <= i < |pieces| ==> pieces[i] == pieces[1..][i - 1];
    }
  }

  /** A character in neither the separator nor any piece is not in their join. */
  lemma {:induction false} JoinFree(pieces: seq<string>, sep: string, c: char)
    requires c !in sep && forall i :: 0 <= i < |pieces| ==> c !in pieces[i]
    ensures c !in Join(pieces, sep)
  {
    if |pieces| > 1 {
      JoinFree(pieces[1..], sep, c);
    }
  }

  /** The line boundaries of Python's `str.splitlines()`. */
  predicate IsLineBreak(c: char) {
    c == '\n' || c == '\r' || c == '\U{b}' || c == '\U{c}' || ('\U{1c}' <= c <= '\U{1e}')
    || c == '\U{85}' || c == '\U{2028}' || c == '\U{2029}'
  }

  /** The index of the first line boundary in `s`, or `|s|` when there is none. */
  function LineEnd(s: string): (i: nat)
    ensures i <= |s|
    ensures forall k :: 0 <= k < i ==> !IsLineBreak(s[k])
    ensures i < |s| ==> IsLineBreak(s[i])
  {
    if s == [] || IsLineBreak(s[0]) then 0 else 1 + LineEnd(s[1..])
  }

  /**
   * `s.splitlines()`: "\r\n" is one boundary, and a boundary at the very end adds no empty line.
   * No line holds a boundary character.
   */
  function SplitLines(s: string): (r: seq<string>)
    ensures forall i, k :: 0 <= i < |r| && 0 <= k < |r[i]| ==> !IsLineBreak(r[i][k])
    decreases |s|
  {
    if s == [] then []
    else
      var i := LineEnd(s);
      if i == |s| then [s]
      else
        var next := if s[i] == '\r' && i + 1 < |s| && s[i + 1] == '\n' then i + 2 else i + 1;
        [s[..i]] + SplitLines(s[next..])
  }

  lemma {:induction false} LineEndAfter(a: string, b: string)
    requires forall k :: 0 <= k < |a| ==> !IsLineBreak(a[k])
    requires b != [] && IsLineBreak(b[0])
    ensures LineEnd(a + b) == |a|
  {
    if a != [] {
      assert (a + b)[1..] == a[1..] + b;
      LineEndAfter(a[1..], b);
    } else {
      assert a + b == b;
    }
  }

  lemma {:induction false} LineEndNone(a: string)
    requires forall k :: 0 <= k < |a| ==> !IsLineBreak(a[k])
    ensures LineEnd(a) == |a|
  {
    if a != [] {
      LineEndNone(a[1..]);
    }
  }

  /**
   * Lines joined with "\n" split back into the same lines, provided no line holds a boundary
   * and the last line is not empty (a file that ends with "\n" is a different joining).
   */
  lemma {:induction false} SplitLinesJoin(lines: seq<string>)
    requires forall i, k :: 0 <= i < |lines| && 0 <= k < |lines[i]| ==> !IsLineBreak(lines[i][k])
    requires lines != [] ==> lines[|lines| - 1] != []
    ensures SplitLines(Join(lines, "\n")) == lines
  {
    if |lines| == 1 {
      LineEndNone(lines[0]);
    } else if |lines| > 1 {
      var a, rest := lines[0], Join(lines[1..], "\n");
      assert Join(lines, "\n") == a + "\n" + rest;
      assert forall k :: 0 <= k < |a| ==> !IsLineBreak(a[k]) by {
        forall k | 0 <= k < |a| ensures !IsLineBreak(a[k]) {
          assert a[k] == lines[0][k];
        }
      }
      SplitLinesFirst(a, rest);
      SplitLinesJoin(lines[1..]);
      assert [a] + lines[1..] == lines;
    }
  }

  /** A line without boundaries followed by "\n" is the first line of the text. */
  lemma SplitLinesFirst(a: string, rest: string)
    requires forall k :: 0 <= k < |a| ==> !IsLineBreak(a[k])
    ensures SplitLines(a + "\n" + rest) == [a] + SplitLines(rest)
  {
    var s := a + "\n" + rest;
    LineEndAfter(a, "\n" + rest);
    assert s == a + ("\n" + rest);
    assert s[..|a|] == a;
    assert s[|a| + 1..] == rest;
  }

  /**
   * `s.replace(pat, "")`: removes the occurrences of `pat` found scanning left to right,
   * without overlaps and without rescanning the text that the removal brings together.
   */
  function RemoveAll(s: string, pat: string): (r: string)
    requires pat != []
    ensures |r| <= |s|
    decreases |s|
  {
    if s == [] then []
    else if pat <= s then RemoveAll(s[|pat|..], pat)
    else [s[0]] + RemoveAll(s[1..], pat)
  }

  /** An occurrence at the very start is removed. */
  lemma RemoveAllPrefix(pat: string, s: string)
    requires pat != []
    ensures RemoveAll(pat + s, pat) == RemoveAll(s, pat)
  {
    assert pat <= pat + s;
    assert (pat + s)[|pat|..] == s;
  }

  /** Text holding no first character of `pat` passes through the removal unchanged. */
  lemma {:induction false} RemoveAllSkip(a: string, x: string, pat: string)
    requires pat != [] && pat[0] !in a
    ensures RemoveAll(a + x, pat) == a + RemoveAll(x, pat)
  {
    if a == [] {
      assert a + x == x;
    } else {
      var s := a + x;
      assert s[0] == a[0] && !(pat <= s);
      assert s[1..] == a[1..] + x;
      RemoveAllSkip(a[1..], x, pat);
      assert [a[0]] + a[1..] == a;
    }
  }

  /** Pieces without the pattern's first character, joined by the pattern, come back concatenated. */
  lemma {:induction false} RemoveAllJoin(pieces: seq<string>, pat: string)
    requires pat != [] && forall i :: 0 <= i < |pieces| ==> pat[0] !in pieces[i]
    ensures RemoveAll(Join(pieces, pat), pat) == Join(pieces, [])
  {
    if |pieces| == 1 {
      RemoveAllSkip(pieces[0], [], pat);
      assert pieces[0] + [] == pieces[0];
    } else if |pieces| > 1 {
      var a, rest := pieces[0], Join(pieces[1..], pat);
      assert Join(pieces, pat) == a + (pat + rest);
      RemoveAllSkip(a, pat + rest, pat);
      RemoveAllPrefix(pat, rest);
      RemoveAllJoin(pieces[1..], pat);
    }
  }

  /** Text in which `pat` does not occur is left unchanged by the removal. */
  lemma {:induction false} RemoveAllAbsent(s: string, pat: string)
    requires pat != []
    requires forall i :: 0 <= i <= |s| ==> !(pat <= s[i..])
    ensures RemoveAll(s, pat) == s
  {
    if s != [] {
      assert s[0..] == s;
      forall i | 0 <= i <= |s[1..]| ensures !(pat <= s[1..][i..]) {
        assert s[1..][i..] == s[i + 1..];
      }
      RemoveAllAbsent(s[1..], pat);
    }
  }

  predicate IsDigit(c: char) { '0' <= c <= '9' }

  function DigitValue(c: char): nat
    requires IsDigit(c)
  {
    c as int - '0' as int
  }

  function DigitChar(d: nat): (c: char)
    requires d < 10
    ensures IsDigit(c) && DigitValue(c) == d
  {
    ('0' as int + d) as char
  }

  /** `str(n)` for a natural number: its decimal digits, most significant first. */
  function NatToString(n: nat): (r: string)
    ensures |r| >= 1
    ensures forall k :: 0 <= k < |r| ==> IsDigit(r[k])
  {
    if n < 10 then [DigitChar(n)] else NatToString(n / 10) + [DigitChar(n % 10)]
  }

  /** `str(n)` for an integer: a minus sign before the digits of a negative number. */
  function IntToString(n: int): string
  {
    if n < 0 then "-" + NatToString(-n) else NatToString(n)
  }

  /**
   * The digit text `int()` accepts after an optional sign: ASCII digits, where a single `_`
   * may stand between two digits.
   */
  predicate IsDecimal(s: string) {
    |s| > 0 && IsDigit(s[0]) && DigitsAfterDigit(s[1..])
  }

  /** What may follow a digit: digits, each possibly preceded by one `_`. */
  predicate DigitsAfterDigit(s: string)
    decreases |s|
  {
    || s == []
    || (IsDigit(s[0]) && DigitsAfterDigit(s[1..]))
    || (|s| >= 2 && s[0] == '_' && IsDigit(s[1]) && DigitsAfterDigit(s[2..]))
  }

  lemma {:induction false} AllDigits(s: string)
    requires forall k :: 0 <= k < |s| ==> IsDigit(s[k])
    ensures DigitsAfterDigit(s)
  {
    if s != [] {
      AllDigits(s[1..]);
    }
  }

  /** The number a digit text denotes, ignoring the `_` separators. */
  function DecimalValue(s: string): nat
  {
    if s == [] then 0
    else if IsDigit(s[|s| - 1]) then DecimalValue(s[..|s| - 1]) * 10 + DigitValue(s[|s| - 1])
    else DecimalValue(s[..|s| - 1])
  }

  /** Python's `int(s)` for text with no surrounding white space; `None` where it raises `ValueError`. */
  function ParseInt(s: string): (r: Option<int>)
    ensures r.Some? ==> s != []
  {
    if |s| > 0 && (s[0] == '+' || s[0] == '-') then
      if IsDecimal(s[1..]) then
        Some(if s[0] == '-' then -(DecimalValue(s[1..]) as int) else DecimalValue(s[1..]))
      else None
    else if IsDecimal(s) then Some(DecimalValue(s))
    else None
  }

  lemma {:induction false} NatToStringValue(n: nat)
    ensures DecimalValue(NatToString(n)) == n
  {
    if n >= 10 {
      NatToStringValue(n / 10);
      var a := NatToString(n / 10);
      var s := a + [DigitChar(n % 10)];
      assert s[..|s| - 1] == a;
    }
  }

  /** Parsing the decimal text of any integer gives back that integer. */
  lemma ParseIntToString(n: int)
    ensures ParseInt(IntToString(n)) == Some(n)
  {
    var s := IntToString(n);
    if n < 0 {
      assert s[1..] == NatToString(-n);
      NatToStringValue(-n);
      AllDigits(NatToString(-n)[1..]);
    } else {
      NatToStringValue(n);
      AllDigits(NatToString(n)[1..]);
    }
  }
}

=== FILE: wrappers.dfy ===
/** Option and Result: the model's stand-ins for Python's `None` and for raised exceptions. */
module Wrappers {

  /** `None` stands for a missing dictionary key or a Python `None`. */
  datatype Option<+T> = None | Some(value: T) {
    function GetOr(default: T): T {
      match this
      case Some(v) => v
      case None => default
    }
  }

  /** `Failure(e)` stands for a raised exception `e`. */
  datatype Result<+R, +E> = Success(value: R) | Failure(error: E)
}
